=== FILE: README.md ===
# Domain-rating staleness service: a Dafny model

This project models the core of the ahref service. The service keeps a history of Ahrefs scrapes per
media outlet and decides which outlets need a fresh domain-rating (DR) fetch. It models five parts:

- The measurement store: the tables `apify_ahref` and `ahref_outlets` as two sequences, with
  their key and foreign-key constraints (`Store`).
- The staleness view `v_outlets_domain_rating_to_update`, as a pure function of the store and the two cutoffs
  `now() - 1 mon` and `now() - 1 year` (`Ranking`, `Staleness`). Its parts are:
  - the per-outlet `row_number()` ranking, descending by capture time;
  - the `latest_dr_search` and `latest_valid_dr` CTEs;
  - the LEFT JOINs with their nullable columns;
  - the two first-match-wins CASE ladders, evaluated in SQL three-valued logic.
- The low-rating view `v_outlets_low_domain_rating`: a nullable flag layered on the first view, and the
  ordering by search date, descending with nulls last (`LowRating`).
- An independent statement of the policy over an outlet's history (`Policy`). It uses the newest authority capture and the
  newest rated authority capture. The proof that the CASE ladders implement this policy is `Policy.StatusFollowsPolicy`.
- The service layer and the HTTP handlers:
  - `getDrStatus` with its synthesised defaults, `getDrStale`, `getLowDomainRating` and `mapDrRow` (`Service`);
  - `updateDomainRating` as a transaction over the store. Faults can be injected at every step (`Append`);
  - the request body schema (`Schema`, over a JSON value type in `Json`);
  - the route handlers' decision logic (`Routes`, with the id-list parsing in `Strings`);
  - the identity-header filter (`Identity`) and the API-key gate (`Auth`).

Behaviour the model does not compute is passed in as a parameter:
- the zod UUID check (`isUuid`) and datetime check (`isDatetime`);
- the Postgres conversion of text to `uuid`, read back as text (`Uuid.Cast`). It either raises or gives the
  canonical spelling, and a canonical spelling converts to itself. `Uuid.Hyphenated` is one such conversion: it accepts
  the 8-4-4-4-12 hexadecimal spelling in either case and reads it back in lower case;
- the conversion of the `dataCapturedAt` text to a timestamp (`timestampOf`);
- `Date.toISOString` (`iso`);
- the ids `gen_random_uuid()` produces, and the steps that fail (`Env`);
- the two time cutoffs (`Clock`);
- whether a read fails;
- the answer of the outlets service.

Timestamps are integers. JSON numbers are exact reals.

Points where the code and its surroundings differ. The model follows the code, except that the routes use the
corrected `getDrStatus` of the fourth point:
- The PATCH route passes the caller's identity as a fourth argument to `updateDomainRating`
  (src/routes/outlets.ts:77-78). The service takes three parameters and stores no organisation or user column
  (src/services/ahref.ts:64-68). Identity is therefore extracted (`Identity.ExtractIdentity`) but never stored.
- The comment at src/services/ahref.ts:125 says "Upsert", but the statement is a plain INSERT. Every successful write
  adds a new link, even when the outlet already had one (`Append.HistoryAfterInsert`).
- `getDrStatus` returns the found view rows first and then the synthesised records in request order. This is not
  request order (`Service.GetDrStatusOrder`). The query has no ORDER BY, so the order among the found rows is not fixed;
  the model returns them in view order.
- `getDrStatus` matches requested ids against the view by UUID in SQL (src/services/ahref.ts:15), but decides which ids
  were not found by comparing texts (src/services/ahref.ts:19, 25) with the canonical spelling Postgres returns. An id
  sent in another spelling of a linked outlet's UUID is answered twice. The model keeps this as written
  (`Service.GetDrStatusAsWritten`), and every other member, the routes included, uses the UUID comparison
  (`Service.GetDrStatus`); see Findings.
- Outlet ids are stored through the `uuid` column type (src/migrate.ts:42), so every stored link carries the canonical
  spelling (`Append.AppendKeepsLinksCanonical`), and text equality on stored outlet ids is UUID equality.
- The low-rating response is the mapped status plus the flag. The model nests the status record inside
  `LowDrStatus` instead of spreading its fields; the content is the same.

## Model

| member | source | states |
|---|---|---|
| Schema.ParseDataType | src/schemas/apify-ahref.ts:6 | a data type parses exactly from "authority" or "traffic", and its name is the text it came from |
| Schema.DataTypeNameRoundTrip | src/schemas/apify-ahref.ts:6 | parsing the name of a data type gives that data type back |
| Schema.ParseBody | src/schemas/apify-ahref.ts:8-35 | a body parses iff it is an object whose every declared field admits its value; the result keeps exactly the declared keys present, with their values unchanged, and has the body's static type |
| Schema.ParseBodyIdempotent | src/schemas/apify-ahref.ts:8-35 | parsing an already parsed body gives the same body |
| Schema.DataTypeRequired | src/schemas/apify-ahref.ts:10 | every accepted body carries `dataType` equal to "authority" or "traffic" |
| Schema.CapturedAtAndRawDataRequired | src/schemas/apify-ahref.ts:11-15 | every accepted body has a datetime string `dataCapturedAt` and an object `rawData` |
| Schema.MinimalBodyAccepted | src/schemas/apify-ahref.ts:9-34 | a body with only `dataType`, a valid `dataCapturedAt` and `rawData` is accepted: every other field is optional |
| Schema.FieldKindsDiscriminate | src/schemas/apify-ahref.ts:12-22 | the integer fields reject 4.5 and accept null and 45; an optional string rejects null; an unknown data type is rejected |
| Uuid.CanonicalOfAccepted | src/migrate.ts:42 | the canonical spelling of an accepted text converts to itself and names the same UUID |
| Uuid.HyphenatedCast | src/services/ahref.ts:15 | the hyphenated conversion accepts exactly the 8-4-4-4-12 hexadecimal spelling and gives its lower-case form, itself such a spelling |
| Uuid.HyphenatedCastCanonicalising | src/services/ahref.ts:15 | the hyphenated conversion gives back its own results unchanged |
| Uuid.CaseIsNotIdentity | src/services/ahref.ts:15-19 | an upper-case spelling and its lower-case form convert to the same UUID, whose text differs from the upper-case one |
| Ranking.Rank | src/migrate.ts:57 | the ranking is a permutation of its input, ordered by key descending with nulls last |
| Ranking.RankHeadIsGreatest | src/migrate.ts:57-65 | rank 1 is an input element whose key is at least every other key |
| Staleness.Searches | src/migrate.ts:53-60 | an outlet's searches are exactly its authority measurements, ordered by capture time descending |
| Staleness.LatestSearch | src/migrate.ts:61-65 | the latest search exists iff there is a search, and it is the one ranked first |
| Staleness.FirstRated | src/migrate.ts:66-72 | the position of the first rated search: none iff no search has a rating; otherwise every earlier search is unrated |
| Staleness.LatestValid | src/migrate.ts:66-72 | the latest valid search is absent iff no search has a rating; otherwise it is a rated search of the ranking |
| Staleness.JoinRow | src/migrate.ts:92-94 | each matched side of the LEFT JOINs carries its date, because `data_captured_at` is NOT NULL |
| Staleness.DrUpdateReason | src/migrate.ts:81-88 | the reason is never NULL on a joined row, is one of the five texts, and is "No DR fetched yet" iff the outlet has no search |
| Staleness.DrToUpdate | src/migrate.ts:75-80 | the two ladders agree: `dr_to_update` holds iff the reason is "No DR fetched yet", "DR fetch to retry" or "DR outdated" |
| Staleness.StatusRow | src/migrate.ts:74-102 | a view row has a reason; `needs_update` equals `dr_to_update`; a valid-DR date implies a search date |
| Staleness.LinkedOutlets | src/migrate.ts:74-92 | the outlets of the link table, each exactly once |
| Staleness.View | src/migrate.ts:96-103 | the view holds one row per linked outlet, each that outlet's status row |
| Staleness.ViewHasOneRowPerLinkedOutlet | src/migrate.ts:74-103 | an outlet has a row iff it has a link, and no outlet has two rows |
| Policy.LatestSearchIsNewest | src/migrate.ts:57-65 | the latest search is the newest authority measurement, whatever its rating |
| Policy.LatestValidIsNewestRated | src/migrate.ts:66-72 | the latest valid DR is the newest authority measurement that has a rating |
| Policy.ValidRatingNotNewerThanSearch | src/migrate.ts:66-72 | when a valid DR exists, a latest search exists and is not older than it |
| Policy.LadderImplementsTable | src/migrate.ts:75-88 | on the two dates, the two CASE ladders compute the policy's reason and staleness |
| Policy.StatusFollowsPolicy | src/migrate.ts:51-103 | every view row's reason, `dr_to_update` and `needs_update` are those of the policy applied to the outlet's history |
| Policy.OnlyAuthorityCounts | src/migrate.ts:60-82 | an outlet whose measurements are all traffic needs an update, reason "No DR fetched yet", with no search date |
| Policy.SearchAtMonthCutoffIsRecent | src/migrate.ts:83-86 | an unrated search captured exactly at the month cutoff is "DR attempt < 1 month" and not stale |
| Policy.RatingAtYearCutoffIsFresh | src/migrate.ts:84-85 | a valid DR captured exactly at the year cutoff is "DR exists < 1 year" and not stale |
| LowRating.HasLow | src/migrate.ts:108-112 | the flag is null iff there is no valid DR, true iff the DR is below 10, false iff it is 10 or more |
| LowRating.LowView | src/migrate.ts:106-114 | the low view is the annotated staleness view, reordered by search date descending with nulls last |
| LowRating.LowViewAnnotatesEveryRow | src/migrate.ts:106-113 | each low-view row is a view row with the flag its own DR gives; every view row appears; nothing is added |
| Service.MapDrRow | src/services/ahref.ts:143-155 | null dates stay null, present dates become ISO text, every other column passes through unchanged |
| Service.Keys | src/services/ahref.ts:15 | the values of the `::uuid[]` array are exactly the canonical spellings of the requested ids |
| Service.KeysCanonical | src/services/ahref.ts:15 | every value of the array converts to itself |
| Service.RowsFor | src/services/ahref.ts:11-17 | the rows for a set of keys are exactly the view rows whose outlet is one of the keys |
| Service.Found | src/services/ahref.ts:11-17 | the query returns exactly the view rows whose outlet is the UUID of a requested id, each outlet id in canonical spelling |
| Service.MissingIds | src/services/ahref.ts:19-25 | as written: the ids to synthesise are exactly the requested ids whose text is not among the returned outlet ids |
| Service.Unmatched | src/services/ahref.ts:19-25 | corrected: the ids to synthesise are exactly the requested ids whose UUID is not among the returned outlet ids |
| Service.GetDrStatusAsWritten | src/services/ahref.ts:7-38 | as written: an empty request gives []; it raises iff some id is not a UUID; every requested id is answered by a record for the same UUID, and every record is for a requested UUID; every requested text without a view row gets a default record |
| Service.GetDrStatus | src/services/ahref.ts:7-38 | corrected: an empty request gives []; it raises iff some id is not a UUID; every requested id is answered by a record for the same UUID; every record is for the UUID of a requested id |
| Service.GetDrStatusOrder | src/services/ahref.ts:19-38 | the output is the mapped found rows followed by one default record per requested id whose UUID has no view row, in request order |
| Service.DuplicateUnknownRepeated | src/services/ahref.ts:24-36 | an unknown id requested twice yields two default records |
| Service.NonCanonicalIdAnsweredTwice | src/services/ahref.ts:15-25 | as written, a linked outlet requested in a non-canonical spelling gets its row and also a "No DR fetched yet" default, which contradicts the row once the outlet was searched; corrected, it gets the row alone |
| Service.LinkedOutletAnsweredOnce | src/services/ahref.ts:11-36 | corrected: a requested outlet that has a view row is answered by exactly one record naming its UUID, and that record is its mapped view row, however many spellings of it the request holds |
| Service.RowAnsweredOnce | src/services/ahref.ts:11-36 | corrected: for any view with no outlet twice, a requested UUID that has a row gets exactly one record naming it, the mapped row |
| Service.StatusAgreesWithPolicy | src/services/ahref.ts:7-36 | corrected: every status record, found or synthesised, names a UUID and carries the policy's reason and staleness for the history stored under that UUID |
| Service.UnlinkedHistoryEmpty | src/services/ahref.ts:23-35 | an outlet without links has an empty history, which the policy calls "No DR fetched yet", matching the default record |
| Service.GetDrStale | src/services/ahref.ts:41-49 | the stale list is the view rows with `needs_update` true, mapped, position by position: each such row once, in view order, and nothing else |
| Service.StaleListMatchesPolicy | src/services/ahref.ts:41-49 | the stale list names exactly the linked outlets the policy calls stale, and no outlet twice |
| Service.GetLowDomainRating | src/services/ahref.ts:51-62 | the low list is exactly the mapped low-view rows whose flag is true, each carrying that flag |
| Service.LowListMatchesRatings | src/services/ahref.ts:51-62 | the low list holds exactly the linked outlets whose valid DR is below 10 |
| Service.LowListNewestSearchFirst | src/services/ahref.ts:51-62 | the low list is newest search first: its i-th record is made from the i-th of the flagged low-view rows, which are sorted by search date descending; every record has a search date, since a rated outlet has been searched |
| Append.IntColumn | src/migrate.ts:17-31 | a number binds to an INTEGER or BIGINT column iff it is null or an integer within the column's range, and it binds unchanged |
| Append.InsertRow | src/services/ahref.ts:74-121 | the insert fails iff some number does not fit its INTEGER or BIGINT column, naming such a column; otherwise the row has the generated id, the converted capture time, the data type and raw data sent, `urlInput` and `domain` as sent or "" when absent, `mode` as sent or NULL, every number as sent or NULL, and every optional JSON value as sent when truthy and NULL otherwise |
| Append.TryBlock | src/services/ahref.ts:70-134 | the block succeeds iff no statement fails, the row binds, both generated keys are new and the outlet id converts; success commits exactly the row and one link to it and sends BEGIN, two INSERTs and COMMIT; a failure leaves the committed store unchanged |
| Append.LinkAndCommit | src/services/ahref.ts:125-134 | the link insert and COMMIT succeed iff neither fails, the outlet id converts and the link key is new; the link stores the canonical spelling of the outlet id; a failure commits nothing |
| Append.UpdateDomainRating | src/services/ahref.ts:64-141 | success iff no step fails, the generated keys are new, every number fits and the outlet id is a UUID; success appends exactly the inserted row and one link to it under the canonical outlet id, sends BEGIN, two INSERTs and COMMIT, and returns `{id, outletId}`; failure leaves the store unchanged, ends with ROLLBACK and rethrows; the client is released exactly once once acquired |
| Append.FalsyJsonStoredAsNull | src/services/ahref.ts:101 | an optional JSON field sent as 0 is stored as NULL |
| Append.AppendPreservesWellFormed | src/migrate.ts:40-46 | a write keeps both primary keys unique and the link's foreign key satisfied |
| Append.HistoryAfterInsert | src/services/ahref.ts:125-130 | a new row with a link extends that outlet's history by the row and leaves every other history as it was |
| Append.HistoryAfterAppend | src/services/ahref.ts:71-134 | a successful write adds the stored row to the history under the outlet's canonical id and changes no other outlet's |
| Append.FreshRatingSettles | src/services/ahref.ts:71-134 | after writing a rated authority scrape captured within the year, the outlet, under its canonical id, is "DR exists < 1 year" and no longer needs an update |
| Append.AppendKeepsLinksCanonical | src/services/ahref.ts:126-130 | if every link holds a canonical outlet id, it still does after a write, whatever spelling the caller used |
| Strings.Trim | src/routes/outlets.ts:30 | trimming removes exactly the leading and trailing whitespace, and leaves no whitespace at either end |
| Strings.Split | src/routes/outlets.ts:30 | splitting gives at least one piece, no piece holds the separator, and the pieces join back to the input |
| Strings.SplitJoin | src/routes/outlets.ts:30 | splitting a join of separator-free pieces gives the pieces back |
| Strings.ParseIds | src/routes/outlets.ts:30 | each parsed id is non-empty, trimmed and comma-free |
| Strings.ParseIdsOfJoin | src/routes/outlets.ts:30 | parsing comma-joined pieces, empty or padded ones included, gives each piece trimmed, in order, with the empty ones dropped |
| Strings.ParseIdsJoin | src/routes/outlets.ts:30 | parsing a comma-joined list of non-empty, trimmed, comma-free ids gives the list back |
| Strings.FirstInvalid | src/routes/outlets.ts:32-38 | none iff every id passes; otherwise the earliest id that fails |
| Routes.RequiredText | src/routes/outlets.ts:24-28 | a query value is accepted iff it is a non-empty string |
| Routes.ReadStatus | src/routes/outlets.ts:40-44 | corrected: an empty id list gives 200 [] without touching the database; otherwise the query either fails with 500 or gives 200 with the service result |
| Routes.DrStatusRoute | src/routes/outlets.ts:22-46 | corrected: a missing value gives 400 "outletIds query parameter is required"; the first invalid id gives 400 "Invalid UUID: " and that id; each 400 is sent before any query; a 200 answers every parsed id by a record for the same UUID, and holds records for parsed ids only |
| Routes.DrStaleRoute | src/routes/outlets.ts:49-57 | 500 iff the read fails, otherwise 200 with the stale list |
| Routes.LowDomainRatingRoute | src/routes/outlets.ts:88-96 | 500 iff the read fails, otherwise 200 with the low list |
| Routes.PatchDomainRatingRoute | src/routes/outlets.ts:60-85 | the outlet id is checked before the body; each 400 leaves the store unchanged; 201 iff the write goes through, with `{id, outletId}` and the appended store; a 500 leaves the store unchanged |
| Routes.CampaignStatusRoute | src/routes/outlets.ts:99-129 | corrected: a missing or invalid campaign id gives 400 before the outlets service is called; a lookup failure gives 500; an empty campaign gives 200 [] without touching the database; otherwise 500 if the query fails and 200 with the service's records if not |
| Routes.Guarded | src/app.ts:33-40 | a request the gate rejects gets 401 and reaches neither the database nor the outlets service; an accepted one gets the handler's reply |
| Routes.GuardedPatch | src/app.ts:34-40 | a rejected PATCH leaves the store unchanged |
| Routes.DrStatusRoundTrip | src/routes/outlets.ts:30-41 | corrected: requesting a comma-joined list of valid ids returns 200 with the service's records for exactly that list |
| Routes.SeparatorsOnlyIsEmptyList | src/routes/outlets.ts:24-41 | "," parses to no ids and gives 200 [] without a query, while "" gives 400 |
| Routes.DrStatusReplyFollowsPolicy | src/routes/outlets.ts:40-41 | corrected: every record in a 200 status reply names a UUID and carries the policy's reason and staleness for the history stored under it |
| Routes.GateDecidesPatch | src/middleware/auth.ts:6-10 | without the exact non-empty key, PATCH gives 401 and leaves the store as it was; with it, PATCH behaves as unguarded |
| Identity.UuidHeader | src/middleware/identity.ts:15-18 | the header is kept verbatim iff it is a single string passing the UUID check; otherwise it is dropped, never an error |
| Identity.ExtractIdentity | src/middleware/identity.ts:11-26 | `orgId` and `userId` each follow the single-UUID rule for their own header |
| Identity.IdentityFieldsIndependent | src/middleware/identity.ts:15-23 | `orgId` does not depend on the user header, and `userId` does not depend on the org header |
| Identity.MalformedIdentityIsEmpty | src/middleware/identity.ts:15-25 | absent or malformed headers give an empty identity |
| Auth.AuthMiddleware | src/middleware/auth.ts:3-12 | the gate calls `next` iff the header is exactly the configured key and not empty; otherwise it answers 401 "Unauthorized: invalid or missing x-api-key" |
| Auth.EmptyKeyLocksOut | src/middleware/auth.ts:6-8 | with an empty configured key, every request is rejected |
| Scenarios.OneScrape | src/migrate.ts:53-103 | with a single rated authority scrape, the view has one row, which carries that rating and the policy's reason for its date |
| Scenarios.OutdatedHighRating | src/migrate.ts:75-114 | an outlet rated 45, 400 days ago, is "DR outdated", needs an update, and is absent from the low list |
| Scenarios.FreshLowRating | src/migrate.ts:75-114 | an outlet rated 5, 10 days ago, is "DR exists < 1 year", needs no update, and is in the low list with the flag true |
| Scenarios.KnownAndUnknown | src/services/ahref.ts:19-38 | a known and an unknown outlet, both in canonical spelling, give exactly two records: the view row, then the default |
| Scenarios.UpperCaseIdOfLinkedOutlet | src/services/ahref.ts:15-25 | an outlet stored as `11111111-aaaa-…` and rated ten days ago, requested as `11111111-AAAA-…`: as written the reply holds its "DR exists < 1 year" row and a "No DR fetched yet" default; corrected, the row alone |
| Scenarios.NoOrphanAfterLinkFailure | src/services/ahref.ts:125-137 | if the link insert fails, the write fails and the new measurement is not in the store |

## Left out

- Postgres calendar arithmetic (`now() - '1 mon'`, `'1 year'`) and `now()` itself: the cutoffs are parameters.
- Timestamps are integers. The text-to-timestamptz conversion and `Date.toISOString` are uninterpreted functions.
- zod's UUID and datetime regular expressions are uninterpreted predicates. The `isUuid` check is the same predicate in
  every route and middleware.
- Postgres's text-to-`uuid` conversion is the abstract `Uuid.Cast`. Only its 8-4-4-4-12 spelling is defined
  (`Uuid.Hyphenated`); the other spellings Postgres accepts (braces, no hyphens) fall under the abstract parameter.
- JSON numbers are exact reals. IEEE-754 rounding and the loss of precision beyond 2^53 are not modelled.
- `JSON.stringify` of the JSONB columns: stored JSON values are the parsed values themselves.
- `Schema.ParseBody`: the "details" array of zod issues in the 400 reply is not modelled. Only acceptance and the stripped body are.
- GetDrStatusOrder: the order of the found rows is the model's choice (view order, which is link order). The
  query has no ORDER BY, so Postgres promises no order there; only the found-then-defaults layout and the request order
  of the defaults come from the code.
- Append.InsertRow: of the values Postgres refuses, only numbers out of their column's range are modelled. A NUL
  character in a TEXT or JSONB value and a timestamp outside Postgres's range also make the insert fail; the model
  covers them only as the injected `InsertMeasurement` fault.
- Routes.ReadStatus: the 200 reply is the corrected `Service.GetDrStatus`. As written, the handler also sends a "No DR
  fetched yet" default for a linked outlet requested in a non-canonical spelling (`Service.GetDrStatusAsWritten`, see
  Findings). The four route members below differ from the code in the same way.
- Routes.DrStatusRoute: its 200 contents are stated for the corrected service.
- Routes.CampaignStatusRoute: its 200 reply holds the corrected service's records.
- Routes.DrStatusRoundTrip: its 200 reply holds the corrected service's records.
- Routes.DrStatusReplyFollowsPolicy: the agreement with the policy is proved for the corrected service. As written, the
  extra default can contradict the policy for a non-canonical spelling (`Service.NonCanonicalIdAnsweredTwice`).
- The tie order among equal capture times: `row_number()` leaves it arbitrary. The model uses a stable order over link
  order, and nothing proved depends on which tie wins.
- `created_at` and `updated_at` are not modelled: they have database defaults and are never read.
- Persistence of the caller's identity: the code never stores it.
- The outlets-service client (src/services/outlets-client.ts) is an HTTP call. It is a parameter that gives an id list or a failure.
- Errors while reading are a single flag per request, plus the `::uuid[]` cast of ids from the outlets service. Their causes
  (connection loss, timeouts) are not modelled.
- Concurrency between requests, transaction isolation and the connection pool (src/db.ts) are not modelled; one append runs alone.
- The Express wiring, JSON body parsing, the health and OpenAPI routes, configuration loading (src/config.ts), startup
  (src/index.ts) and OpenAPI generation (src/generate-openapi.ts) are not part of this model.
- Logging to the console in the error handlers is omitted.

## Findings

| source | as written | input that shows it | evidently intended | confidence | as-written member | corrected member |
|---|---|---|---|---|---|---|
| src/services/ahref.ts:19-25 | `foundIds.has(id)` compares each requested id, as text, with the `outlet_id` texts the query returns, which Postgres spells canonically (lower-case hex) | `outletIds=11111111-AAAA-1111-1111-111111111111` for an outlet linked as `11111111-aaaa-1111-1111-111111111111` and rated ten days ago: the query finds the row ("DR exists < 1 year", `needsUpdate: false`), and the loop adds a "No DR fetched yet" record with `needsUpdate: true` for the same outlet | an id is missing when its UUID has no row, so each requested outlet gets one consistent record | medium; not executed | Service.GetDrStatusAsWritten, exhibited by Service.NonCanonicalIdAnsweredTwice and Scenarios.UpperCaseIdOfLinkedOutlet | Service.GetDrStatus, with Service.Unmatched, Service.LinkedOutletAnsweredOnce and Service.StatusAgreesWithPolicy |

=== FILE: append.dfy ===
/** `updateDomainRating`: one measurement and one link appended in a single
    transaction (BEGIN, INSERT, INSERT, COMMIT), with ROLLBACK and rethrow on
    any failure and the client released once. Failures are injected per
    step; generated ids and the text-to-timestamp conversion are parameters. */
module Append {
  import opened Base
  import opened Json
  import opened Schema
  import opened Store
  import opened Staleness
  import opened Policy
  import opened Uuid

  /** The steps of the write: acquiring the client, then the statements. */
  datatype Step = Connect | Begin | InsertMeasurement | InsertLink | Commit | Rollback

  datatype DbError =
    | Injected(step: Step)          // the step itself failed (connection, server)
    | DuplicateKey(table: string)   // a generated primary key already exists
    | OutOfRange(column: string)    // a number the column type cannot hold
    | InvalidUuid(column: string)   // a text the UUID column cannot hold

  /** The statements sent on the client, in order. */
  datatype Command = BeginCmd | InsertMeasurementCmd | InsertLinkCmd | CommitCmd | RollbackCmd

  /** The service's return value `{ id, outletId }`. */
  datatype Created = Created(id: Id, outletId: Id)

  /** What the environment decides: the ids `gen_random_uuid()` produces
      (canonical UUID text) and the steps that fail. */
  datatype Env = Env(measurementId: Id, linkId: Id, faults: set<Step>)

  /** The result, the committed store afterwards, the statements sent and how
      many times the client was released. */
  datatype Outcome = Outcome(result: Result<Created, DbError>, store: Store, commands: seq<Command>, releases: nat)

  /** A connection: the committed store and the open transaction's view, if any. */
  datatype Session = Session(committed: Store, tx: Option<Store>)

  const IntegerMin := -0x8000_0000
  const IntegerMax := 0x7fff_ffff
  const BigintMin := -0x8000_0000_0000_0000
  const BigintMax := 0x7fff_ffff_ffff_ffff

  /** Binding a JavaScript number to an INTEGER or BIGINT parameter: null
      stays null; a number outside the range, or with a fraction, is an error. */
  function IntColumn(column: string, v: Option<real>, lo: int, hi: int): (r: Result<Option<int>, DbError>)
    ensures r.Success? <==> v.None? || (IsInteger(v.value) && lo <= v.value.Floor <= hi)
    ensures r.Success? ==> (r.value.None? <==> v.None?)
    ensures r.Success? && v.Some? ==> r.value.value as real == v.value && lo <= r.value.value <= hi
    ensures r.Failure? ==> r.error == OutOfRange(column)
  {
    if v.None? then Success(None)
    else if IsInteger(v.value) && lo <= v.value.Floor <= hi then Success(Some(v.value.Floor))
    else Failure(OutOfRange(column))
  }

  /** Whether a column whose type ranges over `lo..hi` can hold the number
      sent: null, or an integer in range. */
  predicate Fits(sent: Option<real>, lo: int, hi: int) {
    sent.None? || (IsInteger(sent.value) && lo <= sent.value.Floor <= hi)
  }

  /** The three numeric fields bound to BIGINT columns; the other seven are INTEGER. */
  predicate IsBigint(k: string) {
    k == "costMonthlyAvg" || k == "overallSearchTraffic" || k == "overallSearchTrafficValue"
  }

  /** Whether the number sent under `k` fits that field's column. */
  predicate FitsColumn(b: UpdateBody, k: string) {
    if IsBigint(k) then Fits(NumberField(b, k), BigintMin, BigintMax)
    else Fits(NumberField(b, k), IntegerMin, IntegerMax)
  }

  /** Whether every numeric field of the body fits its column. */
  predicate NumbersFit(b: UpdateBody) {
    && FitsColumn(b, "authorityDomainRating") && FitsColumn(b, "authorityUrlRating")
    && FitsColumn(b, "authorityBacklinks") && FitsColumn(b, "authorityRefdomains")
    && FitsColumn(b, "authorityDofollowBacklinks") && FitsColumn(b, "authorityDofollowRefdomains")
    && FitsColumn(b, "trafficMonthlyAvg") && FitsColumn(b, "costMonthlyAvg")
    && FitsColumn(b, "overallSearchTraffic") && FitsColumn(b, "overallSearchTrafficValue")
  }

  /** A stored number column holds the number sent, NULL for none. */
  predicate HoldsNumber(stored: Option<int>, sent: Option<real>) {
    && (stored.None? <==> sent.None?)
    && (stored.Some? ==> stored.value as real == sent.value)
  }

  /** A stored JSON column holds the value sent when it is truthy, NULL
      when it is absent or falsy. */
  predicate HoldsIfTruthy(stored: Option<Json>, sent: Option<Json>) {
    && (stored.Some? <==> sent.Some? && Truthy(sent.value))
    && (stored.Some? ==> stored == sent)
  }

  /** An optional text column holds the string sent, `fallback` when absent. */
  predicate HoldsText(stored: string, sent: Option<Json>, fallback: string) {
    && (sent.None? ==> stored == fallback)
    && (sent.Some? && sent.value.JStr? ==> stored == sent.value.s)
  }

  /** A nullable text column holds the string sent, NULL when absent. */
  predicate HoldsOptionalText(stored: Option<string>, sent: Option<Json>) {
    && (sent.None? ==> stored.None?)
    && (sent.Some? && sent.value.JStr? ==> stored == Some(sent.value.s))
  }

  /** The timestamp column holds the conversion of the text sent. */
  predicate HoldsTimestamp(stored: int, sent: Option<Json>, timestampOf: string -> int) {
    sent.Some? && sent.value.JStr? && stored == timestampOf(sent.value.s)
  }

  /** The enum column holds the value whose name was sent. */
  predicate HoldsDataType(stored: DataType, sent: Option<Json>) {
    sent == Some(JStr(DataTypeName(stored)))
  }

  /** The JSONB column holds the object sent. */
  predicate HoldsObject(stored: Json, sent: Option<Json>) {
    sent == Some(stored) && stored.JObj?
  }

  /** The row against the body, column by column. */
  predicate StoredAsSent(m: Measurement, b: UpdateBody, id: Id, timestampOf: string -> int) {
    && m.id == id
    && HoldsTimestamp(m.dataCapturedAt, Lookup(b.fields, "dataCapturedAt"), timestampOf)
    && HoldsDataType(m.dataType, Lookup(b.fields, "dataType"))
    && HoldsObject(m.rawData, Lookup(b.fields, "rawData"))
    && OptionalColumnsAsSent(m, b)
  }

  /** The columns of the optional fields against the body. */
  predicate OptionalColumnsAsSent(m: Measurement, b: UpdateBody) {
    && HoldsText(m.urlInput, Lookup(b.fields, "urlInput"), "")
    && HoldsText(m.domain, Lookup(b.fields, "domain"), "")
    && HoldsOptionalText(m.mode, Lookup(b.fields, "mode"))
    && HoldsNumber(m.authorityDomainRating, NumberField(b, "authorityDomainRating"))
    && HoldsNumber(m.authorityUrlRating, NumberField(b, "authorityUrlRating"))
    && HoldsNumber(m.authorityBacklinks, NumberField(b, "authorityBacklinks"))
    && HoldsNumber(m.authorityRefdomains, NumberField(b, "authorityRefdomains"))
    && HoldsNumber(m.authorityDofollowBacklinks, NumberField(b, "authorityDofollowBacklinks"))
    && HoldsNumber(m.authorityDofollowRefdomains, NumberField(b, "authorityDofollowRefdomains"))
    && HoldsNumber(m.trafficMonthlyAvg, NumberField(b, "trafficMonthlyAvg"))
    && HoldsNumber(m.costMonthlyAvg, NumberField(b, "costMonthlyAvg"))
    && HoldsNumber(m.overallSearchTraffic, NumberField(b, "overallSearchTraffic"))
    && HoldsNumber(m.overallSearchTrafficValue, NumberField(b, "overallSearchTrafficValue"))
    && HoldsIfTruthy(m.trafficHistory, Lookup(b.fields, "trafficHistory"))
    && HoldsIfTruthy(m.trafficTopPages, Lookup(b.fields, "trafficTopPages"))
    && HoldsIfTruthy(m.trafficTopCountries, Lookup(b.fields, "trafficTopCountries"))
    && HoldsIfTruthy(m.trafficTopKeywords, Lookup(b.fields, "trafficTopKeywords"))
    && HoldsIfTruthy(m.overallSearchTrafficHistory, Lookup(b.fields, "overallSearchTrafficHistory"))
    && HoldsIfTruthy(m.overallSearchTrafficValueHistory, Lookup(b.fields, "overallSearchTrafficValueHistory"))
    && HoldsIfTruthy(m.overallSearchTrafficByCountry, Lookup(b.fields, "overallSearchTrafficByCountry"))
    && HoldsIfTruthy(m.trafficByCountry, Lookup(b.fields, "trafficByCountry"))
    && HoldsIfTruthy(m.overallSearchTrafficKeywords, Lookup(b.fields, "overallSearchTrafficKeywords"))
  }

  /** The first numeric field, in parameter order, whose number does not
      fit its column. */
  function FirstUnfit(b: UpdateBody): (k: string)
    requires !NumbersFit(b)
    ensures !FitsColumn(b, k)
  {
    if !FitsColumn(b, "authorityDomainRating") then "authorityDomainRating"
    else if !FitsColumn(b, "authorityUrlRating") then "authorityUrlRating"
    else if !FitsColumn(b, "authorityBacklinks") then "authorityBacklinks"
    else if !FitsColumn(b, "authorityRefdomains") then "authorityRefdomains"
    else if !FitsColumn(b, "authorityDofollowBacklinks") then "authorityDofollowBacklinks"
    else if !FitsColumn(b, "authorityDofollowRefdomains") then "authorityDofollowRefdomains"
    else if !FitsColumn(b, "trafficMonthlyAvg") then "trafficMonthlyAvg"
    else if !FitsColumn(b, "costMonthlyAvg") then "costMonthlyAvg"
    else if !FitsColumn(b, "overallSearchTraffic") then "overallSearchTraffic"
    else "overallSearchTrafficValue"
  }

  /** `body.k ?? null` bound to field `k`'s column, when it fits. */
  function Bound(b: UpdateBody, k: string): (r: Option<int>)
    requires FitsColumn(b, k)
    ensures HoldsNumber(r, NumberField(b, k))
  {
    if IsBigint(k) then IntColumn(k, NumberField(b, k), BigintMin, BigintMax).value
    else IntColumn(k, NumberField(b, k), IntegerMin, IntegerMax).value
  }

  /** The row the INSERT stores once every number is bound; the required
      fields come already read. */
  function BuildRow(b: UpdateBody, id: Id, capturedAt: int, dataType: DataType, rawData: map<string, Json>)
    : (m: Measurement)
    requires NumbersFit(b)
    ensures m.id == id && m.dataCapturedAt == capturedAt && m.dataType == dataType && m.rawData == JObj(rawData)
    ensures OptionalColumnsAsSent(m, b)
  {
    Measurement(
      id := id,
      urlInput := TextField(b, "urlInput").GetOr(""),
      domain := TextField(b, "domain").GetOr(""),
      dataCapturedAt := capturedAt,
      dataType := dataType,
      mode := TextField(b, "mode"),
      rawData := JObj(rawData),
      authorityDomainRating := Bound(b, "authorityDomainRating"),
      authorityUrlRating := Bound(b, "authorityUrlRating"),
      authorityBacklinks := Bound(b, "authorityBacklinks"),
      authorityRefdomains := Bound(b, "authorityRefdomains"),
      authorityDofollowBacklinks := Bound(b, "authorityDofollowBacklinks"),
      authorityDofollowRefdomains := Bound(b, "authorityDofollowRefdomains"),
      trafficMonthlyAvg := Bound(b, "trafficMonthlyAvg"),
      costMonthlyAvg := Bound(b, "costMonthlyAvg"),
      trafficHistory := TruthyField(b, "trafficHistory"),
      trafficTopPages := TruthyField(b, "trafficTopPages"),
      trafficTopCountries := TruthyField(b, "trafficTopCountries"),
      trafficTopKeywords := TruthyField(b, "trafficTopKeywords"),
      overallSearchTraffic := Bound(b, "overallSearchTraffic"),
      overallSearchTrafficHistory := TruthyField(b, "overallSearchTrafficHistory"),
      overallSearchTrafficValue := Bound(b, "overallSearchTrafficValue"),
      overallSearchTrafficValueHistory := TruthyField(b, "overallSearchTrafficValueHistory"),
      overallSearchTrafficByCountry := TruthyField(b, "overallSearchTrafficByCountry"),
      trafficByCountry := TruthyField(b, "trafficByCountry"),
      overallSearchTrafficKeywords := TruthyField(b, "overallSearchTrafficKeywords"))
  }

  /** The row `INSERT INTO apify_ahref (...) VALUES ($1..$25)` stores, with
      `id` the generated key: absent strings become "", absent or null
      numbers NULL, and optional JSON values are stored only when truthy.
      Of the value checks Postgres makes, the model decides only whether
      each number fits its column: the insert fails exactly then, naming
      such a column. Other values Postgres refuses (a NUL character in a
      TEXT or JSONB value, a timestamp outside its range) appear only as
      the injected `InsertMeasurement` fault. */
  function InsertRow(b: UpdateBody, id: Id, timestampOf: string -> int): (r: Result<Measurement, DbError>)
    requires WellTyped(b)
    ensures r.Success? <==> NumbersFit(b)
    ensures r.Success? ==> r.value.id == id
    ensures r.Success? ==> StoredAsSent(r.value, b, id, timestampOf)
    ensures r.Failure? ==> r.error.OutOfRange? && !FitsColumn(b, r.error.column)
  {
    if NumbersFit(b) then Success(BuildRow(b, id, timestampOf(CapturedAtText(b)), DataTypeOf(b), RawDataOf(b)))
    else Failure(OutOfRange(FirstUnfit(b)))
  }

  /** The `try` block run on an open connection, given what binding the
      measurement's parameters gives. Only COMMIT moves the open
      transaction's view into the committed store. */
  function TryBlock(s: Store, outletId: Id, row: Result<Measurement, DbError>, env: Env, cast: Cast)
    : (t: (Result<Created, DbError>, Session, seq<Command>))
    ensures t.0.Success? <==>
      && Begin !in env.faults && InsertMeasurement !in env.faults && row.Success?
      && row.value.id !in MeasurementIds(s.measurements)
      && InsertLink !in env.faults && Commit !in env.faults && cast(outletId).Some? && env.linkId !in LinkIds(s.links)
    ensures t.0.Success? ==>
      && t.0.value == Created(row.value.id, outletId)
      && t.1.committed == Store(s.measurements + [row.value], s.links + [Link(env.linkId, cast(outletId).value, row.value.id)])
      && t.2 == [BeginCmd, InsertMeasurementCmd, InsertLinkCmd, CommitCmd]
    ensures t.0.Failure? ==> t.1.committed == s && |t.2| >= 1 && t.2[0] == BeginCmd
  {
    var idle := Session(s, None);
    if Begin in env.faults then (Failure(Injected(Begin)), idle, [BeginCmd])
    else
      var open := Session(s, Some(s));
      var sent := [BeginCmd, InsertMeasurementCmd];
      if InsertMeasurement in env.faults then (Failure(Injected(InsertMeasurement)), open, sent)
      else match row
      case Failure(e) => (Failure(e), open, sent)
      case Success(m) =>
        if m.id in MeasurementIds(open.tx.value.measurements) then (Failure(DuplicateKey("apify_ahref")), open, sent)
        else
          var (result, session, rest) := LinkAndCommit(s, outletId, m, env, cast);
          (result, session, sent + rest)
  }

  /** The rest of the `try` block once the measurement row is in the open
      transaction: the link insert and the COMMIT. */
  function LinkAndCommit(s: Store, outletId: Id, m: Measurement, env: Env, cast: Cast)
    : (t: (Result<Created, DbError>, Session, seq<Command>))
    ensures t.0.Success? <==>
      InsertLink !in env.faults && Commit !in env.faults && cast(outletId).Some? && env.linkId !in LinkIds(s.links)
    ensures t.0.Success? ==>
      && t.0.value == Created(m.id, outletId)
      && t.1.committed == Store(s.measurements + [m], s.links + [Link(env.linkId, cast(outletId).value, m.id)])
      && t.2 == [InsertLinkCmd, CommitCmd]
    ensures t.0.Failure? ==> t.1.committed == s
  {
    var withRow := Session(s, Some(Store(s.measurements + [m], s.links)));
    var sent := [InsertLinkCmd];
    if InsertLink in env.faults then (Failure(Injected(InsertLink)), withRow, sent)
    else if cast(outletId).None? then (Failure(InvalidUuid("outlet_id")), withRow, sent)
    else
      // the UUID column stores the canonical spelling of the outlet id
      var link := Link(env.linkId, cast(outletId).value, m.id);
      if link.id in LinkIds(withRow.tx.value.links) then (Failure(DuplicateKey("ahref_outlets")), withRow, sent)
      else
        var withLink := Session(s, Some(Store(withRow.tx.value.measurements, s.links + [link])));
        var sent' := sent + [CommitCmd];
        if Commit in env.faults then (Failure(Injected(Commit)), withLink, sent')
        else (Success(Created(m.id, outletId)), Session(withLink.tx.value, None), sent')
  }

  /** Whether no statement of the transaction fails. */
  predicate StatementsGoThrough(s: Store, outletId: Id, b: UpdateBody, env: Env, cast: Cast, timestampOf: string -> int)
    requires WellTyped(b)
  {
    && Begin !in env.faults && InsertMeasurement !in env.faults
    && InsertLink !in env.faults && Commit !in env.faults
    && InsertRow(b, env.measurementId, timestampOf).Success?
    && cast(outletId).Some?
    && env.measurementId !in MeasurementIds(s.measurements)
    && env.linkId !in LinkIds(s.links)
  }

  /** Whether nothing on the path of a successful write fails. */
  predicate WriteGoesThrough(s: Store, outletId: Id, b: UpdateBody, env: Env, cast: Cast, timestampOf: string -> int)
    requires WellTyped(b)
  {
    Connect !in env.faults && StatementsGoThrough(s, outletId, b, env, cast, timestampOf)
  }

  /** `updateDomainRating(pool, outletId, body)`. */
  function UpdateDomainRating(s: Store, outletId: Id, b: UpdateBody, env: Env, cast: Cast, timestampOf: string -> int): (o: Outcome)
    requires WellTyped(b)
    ensures o.result.Success? <==> WriteGoesThrough(s, outletId, b, env, cast, timestampOf)
    ensures o.result.Success? ==> o.result.value == Created(env.measurementId, outletId)
    ensures o.result.Success? ==>
      o.store == Store(s.measurements + [InsertRow(b, env.measurementId, timestampOf).value],
                       s.links + [Link(env.linkId, cast(outletId).value, env.measurementId)])
    ensures o.result.Success? ==> o.commands == [BeginCmd, InsertMeasurementCmd, InsertLinkCmd, CommitCmd]
    ensures o.result.Failure? ==> o.store == s
    ensures o.result.Failure? && Connect !in env.faults ==>
      |o.commands| >= 2 && o.commands[0] == BeginCmd && o.commands[|o.commands| - 1] == RollbackCmd
    ensures o.result.Failure? && Connect !in env.faults && Rollback in env.faults ==> o.result.error == Injected(Rollback)
    ensures Connect in env.faults ==> o.result == Failure(Injected(Connect)) && o.commands == []
    ensures o.releases == (if Connect in env.faults then 0 else 1)
  {
    if Connect in env.faults then Outcome(Failure(Injected(Connect)), s, [], 0)
    else
      var (result, session, sent) := TryBlock(s, outletId, InsertRow(b, env.measurementId, timestampOf), env, cast);
      if result.Success? then Outcome(result, session.committed, sent, 1)
      else
        // catch: ROLLBACK discards the open transaction; its own failure replaces the error
        var afterRollback := Session(session.committed, None);
        var error := if Rollback in env.faults then Injected(Rollback) else result.error;
        Outcome(Failure(error), afterRollback.committed, sent + [RollbackCmd], 1)
  }

  /** An optional JSON field that is present but falsy (here the number 0)
      is stored as NULL, not as the value sent. */
  lemma FalsyJsonStoredAsNull(b: UpdateBody, id: Id, timestampOf: string -> int)
    requires WellTyped(b)
    requires InsertRow(b, id, timestampOf).Success?
    requires Lookup(b.fields, "trafficHistory") == Some(JNum(0.0))
    ensures InsertRow(b, id, timestampOf).value.trafficHistory.None?
  {
  }

  /** A successful append keeps the store's key and foreign-key constraints. */
  lemma AppendPreservesWellFormed(s: Store, outletId: Id, b: UpdateBody, env: Env, cast: Cast, timestampOf: string -> int)
    requires WellTyped(b)
    requires WellFormed(s)
    ensures WellFormed(UpdateDomainRating(s, outletId, b, env, cast, timestampOf).store)
  {
    var o := UpdateDomainRating(s, outletId, b, env, cast, timestampOf);
    if o.result.Success? {
      var m := InsertRow(b, env.measurementId, timestampOf).value;
      InsertKeepsWellFormed(s, m, Link(env.linkId, cast(outletId).value, env.measurementId));
    }
  }

  /** Appending a row with a fresh key and a fresh link to it keeps both
      keys unique and the foreign key satisfied. */
  lemma InsertKeepsWellFormed(s: Store, m: Measurement, l: Link)
    requires WellFormed(s)
    requires m.id !in MeasurementIds(s.measurements)
    requires l.id !in LinkIds(s.links)
    requires l.measurementId == m.id
    ensures WellFormed(Store(s.measurements + [m], s.links + [l]))
  {
    var ms := s.measurements + [m];
    var ls := s.links + [l];
    assert m in ms;
    forall x | x in ls
      ensures x.measurementId in MeasurementIds(ms)
    {
      if x != l {
        assert x in s.links;
        var y :| y in s.measurements && y.id == x.measurementId;
        assert y in ms;
      }
    }
    forall i, j | 0 <= i < j < |ls|
      ensures ls[i].id != ls[j].id
    {
      if j == |ls| - 1 {
        assert ls[i] in s.links;
      }
    }
    forall i, j | 0 <= i < j < |ms|
      ensures ms[i].id != ms[j].id
    {
      if j == |ms| - 1 {
        assert ms[i] in s.measurements;
      }
    }
  }

  /** Adding a fresh measurement and one link to it extends the linked
      outlet's history by that measurement and leaves every other history. */
  lemma HistoryAfterInsert(s: Store, m: Measurement, l: Link, o: Id)
    requires WellFormed(s)
    requires m.id !in MeasurementIds(s.measurements)
    requires l.measurementId == m.id
    ensures History(Store(s.measurements + [m], s.links + [l]), o) ==
      History(s, o) + (if o == l.outletId then [m] else [])
  {
    forall x | x in s.links
      ensures x.measurementId != m.id
    {
      assert x.measurementId in MeasurementIds(s.measurements);
    }
    JoinedAppendLink(s.links, l, s.measurements + [m], o);
    JoinedAppendUnreferenced(s.links, s.measurements, m, o);
    WithIdAppend(s.measurements, m, m.id);
    WithIdAbsent(s.measurements, m.id);
    assert WithId(s.measurements + [m], l.measurementId) == [m];
  }

  /** After a successful append the history of the written outlet, under
      the canonical spelling of its id, gains exactly the new measurement,
      at the end, and every other outlet's history is unchanged. */
  lemma HistoryAfterAppend(s: Store, outletId: Id, b: UpdateBody, env: Env, cast: Cast, timestampOf: string -> int, other: Id)
    requires WellTyped(b)
    requires WellFormed(s)
    requires UpdateDomainRating(s, outletId, b, env, cast, timestampOf).result.Success?
    ensures cast(outletId).Some?
    ensures History(UpdateDomainRating(s, outletId, b, env, cast, timestampOf).store, cast(outletId).value) ==
      History(s, cast(outletId).value) + [InsertRow(b, env.measurementId, timestampOf).value]
    ensures other != cast(outletId).value ==>
      History(UpdateDomainRating(s, outletId, b, env, cast, timestampOf).store, other) == History(s, other)
  {
    var o := UpdateDomainRating(s, outletId, b, env, cast, timestampOf);
    var m := InsertRow(b, env.measurementId, timestampOf).value;
    var key := cast(outletId).value;
    var l := Link(env.linkId, key, env.measurementId);
    assert o.store == Store(s.measurements + [m], s.links + [l]);
    HistoryAfterInsert(s, m, l, key);
    HistoryAfterInsert(s, m, l, other);
  }

  /** A committed authority measurement with a rating, captured within the
      year, settles the outlet: its status becomes "DR exists < 1 year" and
      it no longer needs an update, whatever its history held before. */
  lemma FreshRatingSettles(s: Store, outletId: Id, b: UpdateBody, env: Env, cast: Cast, timestampOf: string -> int, c: Clock)
    requires WellTyped(b)
    requires WellFormed(s)
    requires UpdateDomainRating(s, outletId, b, env, cast, timestampOf).result.Success?
    requires DataTypeOf(b) == Authority
    requires NumberField(b, "authorityDomainRating").Some?
    requires timestampOf(CapturedAtText(b)) >= c.oneYearAgo
    ensures cast(outletId).Some?
    ensures StatusRow(UpdateDomainRating(s, outletId, b, env, cast, timestampOf).store, cast(outletId).value, c).drUpdateReason
      == Some(FreshText)
    ensures !StatusRow(UpdateDomainRating(s, outletId, b, env, cast, timestampOf).store, cast(outletId).value, c).needsUpdate
  {
    var s' := UpdateDomainRating(s, outletId, b, env, cast, timestampOf).store;
    var m := InsertRow(b, env.measurementId, timestampOf).value;
    var key := cast(outletId).value;
    InsertedRatedAuthority(b, env.measurementId, timestampOf);
    HistoryAfterAppend(s, outletId, b, env, cast, timestampOf, key);
    assert m in History(s', key);
    RecentRatingIsFresh(History(s', key), m, c);
    StatusFollowsPolicy(s', key, c);
  }

  /** A stored authority body with a rating gives a rated authority row,
      captured when the body says. */
  lemma InsertedRatedAuthority(b: UpdateBody, id: Id, timestampOf: string -> int)
    requires WellTyped(b)
    requires InsertRow(b, id, timestampOf).Success?
    requires DataTypeOf(b) == Authority
    requires NumberField(b, "authorityDomainRating").Some?
    ensures IsAuthority(InsertRow(b, id, timestampOf).value)
    ensures HasRating(InsertRow(b, id, timestampOf).value)
    ensures InsertRow(b, id, timestampOf).value.dataCapturedAt == timestampOf(CapturedAtText(b))
  {
    var m := InsertRow(b, id, timestampOf).value;
    assert HoldsDataType(m.dataType, Lookup(b.fields, "dataType"));
    assert HoldsNumber(m.authorityDomainRating, NumberField(b, "authorityDomainRating"));
  }

  /** Whether every link carries its outlet id in canonical spelling. */
  predicate LinksCanonical(s: Store, cast: Cast) {
    forall l :: l in s.links ==> IsCanonical(cast, l.outletId)
  }

  /** Writes keep the links canonical, whatever spelling of the outlet id
      the caller used, so text equality on stored outlet ids is UUID
      equality. */
  lemma AppendKeepsLinksCanonical(s: Store, outletId: Id, b: UpdateBody, env: Env, cast: Cast, timestampOf: string -> int)
    requires WellTyped(b)
    requires LinksCanonical(s, cast)
    ensures LinksCanonical(UpdateDomainRating(s, outletId, b, env, cast, timestampOf).store, cast)
  {
    var o := UpdateDomainRating(s, outletId, b, env, cast, timestampOf);
    if o.result.Success? {
      CanonicalOfAccepted(cast, outletId);
      assert o.store.links == s.links + [Link(env.linkId, cast(outletId).value, env.measurementId)];
    }
  }

  /** A history holding a rated authority measurement from within the year
      is classified "DR exists < 1 year", whatever else it holds. */
  lemma RecentRatingIsFresh(h: seq<Measurement>, m: Measurement, c: Clock)
    requires m in h && IsAuthority(m) && HasRating(m)
    requires m.dataCapturedAt >= c.oneYearAgo
    ensures Classify(h, c) == Fresh
  {
    assert m in AuthorityOf(h);
    assert m in RatedOf(AuthorityOf(h));
  }
}

=== FILE: auth.dfy ===
/** `authMiddleware(apiKey)` (src/middleware/auth.ts): the gate in front of
    every outlet route. */
module Auth {
  import opened Http

  const UnauthorizedText := "Unauthorized: invalid or missing x-api-key"

  /** Either the request goes on to `next()`, or the gate answers it. */
  datatype Gate = Next | Reject(status: int, error: string)

  /** JavaScript truthiness of a header value: undefined and "" are falsy,
      any array is truthy. */
  predicate Provided(h: Header) {
    match h
    case Absent => false
    case Single(v) => v != ""
    case Multiple(_) => true
  }

  function AuthMiddleware(apiKey: string, provided: Header): (g: Gate)
    ensures g.Next? <==> provided == Single(apiKey) && apiKey != ""
    ensures g.Reject? ==> g.status == 401 && g.error == UnauthorizedText
  {
    if !Provided(provided) || provided != Single(apiKey) then Reject(401, UnauthorizedText)
    else Next
  }

  /** With an empty configured key nothing gets through: the empty header
      that would equal it counts as missing. */
  lemma EmptyKeyLocksOut(provided: Header)
    ensures AuthMiddleware("", provided).Reject?
  {
  }
}

=== FILE: base.dfy ===
/** Failure-compatible wrappers shared by every module of the model. */
module Base {

  /** A value that may be missing: SQL NULL, a JavaScript `null`/`undefined`. */
  datatype Option<+T> = None | Some(value: T) {

    /** The value if present, otherwise `default` (JavaScript `??`). */
    function GetOr(default: T): T {
      match this
      case Some(v) => v
      case None => default
    }
  }

  /** The outcome of an operation that can throw. */
  datatype Result<+R, +E> = Success(value: R) | Failure(error: E) {

    predicate IsFailure() {
      Failure?
    }

    function PropagateFailure<U>(): Result<U, E>
      requires Failure?
    {
      Failure(error)
    }

    function Extract(): R
      requires Success?
    {
      value
    }
  }

  /** The elements of `s` that satisfy `p`, in order (`Array.prototype.filter`, SQL `WHERE`). */
  function Filter<T(!new)>(s: seq<T>, p: T -> bool): (r: seq<T>)
    ensures |r| <= |s|
    ensures forall x :: x in r <==> x in s && p(x)
  {
    if |s| == 0 then []
    else if p(s[0]) then [s[0]] + Filter(s[1..], p)
    else Filter(s[1..], p)
  }

  lemma FilterAppend<T(!new)>(s: seq<T>, t: seq<T>, p: T -> bool)
    ensures Filter(s + t, p) == Filter(s, p) + Filter(t, p)
  {
    if |s| == 0 {
      assert s + t == t;
    } else {
      assert (s + t)[1..] == s[1..] + t;
      FilterAppend(s[1..], t, p);
    }
  }

  lemma FilterKeepsAll<T(!new)>(s: seq<T>, p: T -> bool)
    requires forall x :: x in s ==> p(x)
    ensures Filter(s, p) == s
  {
    if |s| > 0 {
      FilterKeepsAll(s[1..], p);
      assert s == [s[0]] + s[1..];
    }
  }

  lemma FilterKeepsNone<T(!new)>(s: seq<T>, p: T -> bool)
    requires forall x :: x in s ==> !p(x)
    ensures Filter(s, p) == []
  {
    if |s| > 0 {
      FilterKeepsNone(s[1..], p);
    }
  }

  /** No two elements of `s` share a key. */
  predicate DistinctBy<T, K(==)>(s: seq<T>, key: T -> K) {
    forall i, j :: 0 <= i < j < |s| ==> key(s[i]) != key(s[j])
  }

  /** The tail of a key-distinct sequence is key-distinct, and its keys
      differ from the head's. */
  lemma DistinctTail<T, K>(s: seq<T>, key: T -> K)
    requires |s| > 0 && DistinctBy(s, key)
    ensures DistinctBy(s[1..], key)
    ensures forall x :: x in s[1..] ==> key(x) != key(s[0])
  {
    forall i, j | 0 <= i < j < |s[1..]|
      ensures key(s[1..][i]) != key(s[1..][j])
    {
      assert s[1..][i] == s[i + 1] && s[1..][j] == s[j + 1];
    }
    forall x | x in s[1..]
      ensures key(x) != key(s[0])
    {
      var k :| 0 <= k < |s[1..]| && s[1..][k] == x;
      assert s[k + 1] == x;
    }
  }

  /** Putting in front an element whose key the rest lacks keeps keys distinct. */
  lemma DistinctCons<T, K>(x: T, t: seq<T>, key: T -> K)
    requires DistinctBy(t, key)
    requires forall y :: y in t ==> key(y) != key(x)
    ensures DistinctBy([x] + t, key)
  {
    var r := [x] + t;
    forall i, j | 0 <= i < j < |r|
      ensures key(r[i]) != key(r[j])
    {
      assert r[j] == t[j - 1] && t[j - 1] in t;
      if i > 0 {
        assert r[i] == t[i - 1];
      }
    }
  }

  /** Filtering keeps keys distinct. */
  lemma {:induction false} FilterKeepsDistinct<T(!new), K>(s: seq<T>, p: T -> bool, key: T -> K)
    requires DistinctBy(s, key)
    ensures DistinctBy(Filter(s, p), key)
  {
    if |s| > 0 {
      DistinctTail(s, key);
      FilterKeepsDistinct(s[1..], p, key);
      if p(s[0]) {
        DistinctCons(s[0], Filter(s[1..], p), key);
      }
    }
  }

  /** `Array.prototype.map`. */
  function Map<T, U>(s: seq<T>, f: T -> U): (r: seq<U>)
    ensures |r| == |s|
    ensures forall i :: 0 <= i < |s| ==> r[i] == f(s[i])
  {
    seq(|s|, i requires 0 <= i < |s| => f(s[i]))
  }
}

=== FILE: http.dfy ===
/** The shapes Express hands a handler: a query parameter as parsed by
    `qs`, and a request header as Node exposes it. */
module Http {
  /** `req.query.x`: absent, a string, or a structured value (an array for
      a repeated key, an object for `x[a]=b`). */
  datatype QueryValue = Missing | Str(s: string) | Structured

  /** `req.headers["x"]`: absent, one string, or an array of strings. */
  datatype Header = Absent | Single(value: string) | Multiple(values: seq<string>)
}

=== FILE: identity.dfy ===
/** `extractIdentity` (src/middleware/identity.ts): the optional caller
    identity read from the `x-org-id` and `x-user-id` headers. */
module Identity {
  import opened Base
  import opened Http

  datatype Identity = Identity(orgId: Option<string>, userId: Option<string>)

  /** One header kept verbatim when it is a single string passing the UUID
      check, dropped otherwise; never an error. */
  function UuidHeader(h: Header, isUuid: string -> bool): (r: Option<string>)
    ensures r.Some? <==> h.Single? && isUuid(h.value)
    ensures r.Some? ==> r.value == h.value
  {
    match h
    case Single(v) => if isUuid(v) then Some(v) else None
    case _ => None
  }

  function ExtractIdentity(orgHeader: Header, userHeader: Header, isUuid: string -> bool): (r: Identity)
    ensures r.orgId.Some? <==> orgHeader.Single? && isUuid(orgHeader.value)
    ensures r.orgId.Some? ==> r.orgId.value == orgHeader.value
    ensures r.userId.Some? <==> userHeader.Single? && isUuid(userHeader.value)
    ensures r.userId.Some? ==> r.userId.value == userHeader.value
  {
    Identity(UuidHeader(orgHeader, isUuid), UuidHeader(userHeader, isUuid))
  }

  /** Each field depends on its own header only. */
  lemma IdentityFieldsIndependent(org: Header, org': Header, user: Header, user': Header, isUuid: string -> bool)
    ensures ExtractIdentity(org, user, isUuid).orgId == ExtractIdentity(org, user', isUuid).orgId
    ensures ExtractIdentity(org, user, isUuid).userId == ExtractIdentity(org', user, isUuid).userId
  {
  }

  /** A request without identity headers, or with malformed ones, is still
      served: the identity is simply empty. */
  lemma MalformedIdentityIsEmpty(org: Header, user: Header, isUuid: string -> bool)
    requires !(org.Single? && isUuid(org.value))
    requires !(user.Single? && isUuid(user.value))
    ensures ExtractIdentity(org, user, isUuid) == Identity(None, None)
  {
  }
}

=== FILE: json.dfy ===
/** JSON values as they arrive in a request body and as JSONB stores them. */
module Json {

  /** A JSON value. Numbers are exact rationals; objects are maps, because
      neither a JavaScript object parsed from JSON nor a JSONB value keeps
      duplicate keys, and JSONB does not keep key order. */
  datatype Json =
    | JNull
    | JBool(b: bool)
    | JNum(n: real)
    | JStr(s: string)
    | JArr(items: seq<Json>)
    | JObj(fields: map<string, Json>)

  /** JavaScript truthiness of a value parsed from JSON: `null`, `false`,
      `0` and `""` are falsy, every array and object is truthy. */
  predicate Truthy(j: Json) {
    match j
    case JNull => false
    case JBool(b) => b
    case JNum(n) => n != 0.0
    case JStr(s) => s != ""
    case JArr(_) => true
    case JObj(_) => true
  }

  /** `Number.isInteger` on a finite number. */
  predicate IsInteger(n: real) {
    n.Floor as real == n
  }
}

=== FILE: lowrating.dfy ===
/** The view `v_outlets_low_domain_rating`: every row of the staleness view
    with a nullable low-rating flag, newest search first, no search last. */
module LowRating {
  import opened Base
  import opened Store
  import opened Ranking
  import opened Staleness

  /** Ratings strictly below this are low. */
  const LowThreshold := 10

  /** A row of the view: the staleness row and `has_low_domain_rating`. */
  datatype LowRow = LowRow(row: ViewRow, hasLowDomainRating: Option<bool>)

  /** The `has_low_domain_rating` CASE: NULL without a valid rating,
      otherwise whether the rating is below the threshold. */
  function HasLow(latestValidDr: Option<int>): (r: Option<bool>)
    ensures r.None? <==> latestValidDr.None?
    ensures r == Some(true) <==> latestValidDr.Some? && latestValidDr.value < LowThreshold
    ensures r == Some(false) <==> latestValidDr.Some? && latestValidDr.value >= LowThreshold
  {
    if latestValidDr.None? then None
    else if latestValidDr.value < LowThreshold then Some(true)
    else Some(false)
  }

  function Annotate(row: ViewRow): LowRow {
    LowRow(row, HasLow(row.latestValidDr))
  }

  function SearchKey(r: LowRow): Option<int> {
    r.row.drLatestSearchDate
  }

  /** `v_outlets_low_domain_rating`, `ORDER BY dr_latest_search_date DESC NULLS LAST`. */
  function LowView(s: Store, c: Clock): (rows: seq<LowRow>)
    ensures SortedBy(rows, SearchKey)
    ensures multiset(rows) == multiset(Map(View(s, c), Annotate))
  {
    Rank(Map(View(s, c), Annotate), SearchKey)
  }

  /** Every row of the low-rating view is a staleness row carrying the flag
      its own rating determines, and every staleness row is there. */
  lemma LowViewAnnotatesEveryRow(s: Store, c: Clock)
    ensures forall r :: r in LowView(s, c) ==> r.row in View(s, c) && r.hasLowDomainRating == HasLow(r.row.latestValidDr)
    ensures forall row :: row in View(s, c) ==> Annotate(row) in LowView(s, c)
    ensures |LowView(s, c)| == |View(s, c)|
  {
    var annotated := Map(View(s, c), Annotate);
    forall r | r in LowView(s, c)
      ensures r.row in View(s, c) && r.hasLowDomainRating == HasLow(r.row.latestValidDr)
    {
      assert r in multiset(annotated);
      var i :| 0 <= i < |annotated| && annotated[i] == r;
      assert View(s, c)[i] == r.row;
    }
    forall row | row in View(s, c)
      ensures Annotate(row) in LowView(s, c)
    {
      var i :| 0 <= i < |View(s, c)| && View(s, c)[i] == row;
      assert annotated[i] in multiset(annotated);
    }
    assert |multiset(LowView(s, c))| == |multiset(annotated)|;
  }
}

=== FILE: policy.dfy ===
/** The staleness policy stated directly on an outlet's history, as a table
    over the newest capture dates, and the proof that the view's CASE
    ladders implement it. */
module Policy {
  import opened Base
  import opened Store
  import opened Ranking
  import opened Staleness

  datatype Reason = NotFetched | Retry | Outdated | Fresh | RecentAttempt

  function Text(r: Reason): string {
    match r
    case NotFetched => NotFetchedText
    case Retry => RetryText
    case Outdated => OutdatedText
    case Fresh => FreshText
    case RecentAttempt => RecentAttemptText
  }

  /** The reasons under which an outlet needs a new fetch. */
  predicate Stale(r: Reason) {
    r == NotFetched || r == Retry || r == Outdated
  }

  /** The latest capture date among `s`, or None when `s` is empty. */
  function Newest(s: seq<Measurement>): (r: Option<int>)
    ensures r.None? <==> |s| == 0
    ensures r.Some? ==> exists m :: m in s && m.dataCapturedAt == r.value
    ensures r.Some? ==> forall m :: m in s ==> m.dataCapturedAt <= r.value
  {
    if |s| == 0 then None
    else
      var rest := Newest(s[1..]);
      assert forall m :: m in s ==> m == s[0] || m in s[1..];
      if rest.None? || s[0].dataCapturedAt >= rest.value then Some(s[0].dataCapturedAt)
      else rest
  }

  function AuthorityOf(h: seq<Measurement>): seq<Measurement> {
    Filter(h, IsAuthority)
  }

  function RatedOf(h: seq<Measurement>): seq<Measurement> {
    Filter(h, HasRating)
  }

  /** The classification table, first match wins:
      no authority measurement; no rating and last search a month old;
      newest rating a year old; newest rating within the year; no rating
      and last search within the month. */
  function Classify(h: seq<Measurement>, c: Clock): Reason {
    ClassifyDates(Newest(AuthorityOf(h)), Newest(RatedOf(AuthorityOf(h))), c)
  }

  /** The table on the two dates it reads: the newest authority capture and
      the newest rated authority capture. */
  function ClassifyDates(newest: Option<int>, newestRated: Option<int>, c: Clock): Reason {
    if newest.None? then NotFetched
    else if newestRated.None? && newest.value < c.oneMonthAgo then Retry
    else if newestRated.Some? && newestRated.value < c.oneYearAgo then Outdated
    else if newestRated.Some? then Fresh
    else RecentAttempt
  }

  /** `latestSearch` is the newest authority measurement, whatever its rating. */
  lemma LatestSearchIsNewest(h: seq<Measurement>)
    ensures LatestSearch(Searches(h)).Some? <==> Newest(AuthorityOf(h)).Some?
    ensures LatestSearch(Searches(h)).Some? ==>
      LatestSearch(Searches(h)).value.dataCapturedAt == Newest(AuthorityOf(h)).value
  {
    var r := Searches(h);
    var auth := AuthorityOf(h);
    if |r| > 0 {
      assert r[0] in auth;
      var newest := Newest(auth).value;
      var m :| m in auth && m.dataCapturedAt == newest;
      assert m in r;
      var i :| 0 <= i < |r| && r[i] == m;
      if i > 0 {
        assert Precedes(CaptureKey(r[0]), CaptureKey(r[i]));
      }
    }
  }

  /** `latestValidDr` is the newest authority measurement that has a rating. */
  lemma LatestValidIsNewestRated(h: seq<Measurement>)
    ensures LatestValid(Searches(h)).Some? <==> Newest(RatedOf(AuthorityOf(h))).Some?
    ensures LatestValid(Searches(h)).Some? ==>
      LatestValid(Searches(h)).value.dataCapturedAt == Newest(RatedOf(AuthorityOf(h))).value
  {
    var r := Searches(h);
    var rated := RatedOf(AuthorityOf(h));
    match FirstRated(r)
    case None =>
    case Some(k) =>
      assert r[k] in rated;
      var newest := Newest(rated).value;
      var m :| m in rated && m.dataCapturedAt == newest;
      assert m in r;
      var i :| 0 <= i < |r| && r[i] == m;
      if i != k {
        assert i > k;
        assert Precedes(CaptureKey(r[k]), CaptureKey(r[i]));
      }
  }

  /** If an outlet has a valid rating it has a latest search, and the rating
      is not newer than that search. */
  lemma ValidRatingNotNewerThanSearch(h: seq<Measurement>)
    requires LatestValid(Searches(h)).Some?
    ensures LatestSearch(Searches(h)).Some?
    ensures LatestValid(Searches(h)).value.dataCapturedAt <= LatestSearch(Searches(h)).value.dataCapturedAt
  {
    var r := Searches(h);
    var v := LatestValid(r).value;
    var i :| 0 <= i < |r| && r[i] == v;
    if i > 0 {
      assert Precedes(CaptureKey(r[0]), CaptureKey(r[i]));
    }
  }

  /** The view's two CASE ladders implement the policy table: the reason is
      the table's reason and `dr_to_update` says whether it is stale. */
  lemma {:induction false} StatusFollowsPolicy(s: Store, outlet: Id, c: Clock)
    ensures StatusRow(s, outlet, c).drUpdateReason == Some(Text(Classify(History(s, outlet), c)))
    ensures StatusRow(s, outlet, c).drToUpdate == Stale(Classify(History(s, outlet), c))
    ensures StatusRow(s, outlet, c).needsUpdate == Stale(Classify(History(s, outlet), c))
  {
    var h := History(s, outlet);
    var j := JoinRow(outlet, Searches(h));
    LatestSearchIsNewest(h);
    LatestValidIsNewestRated(h);
    LadderImplementsTable(j, Newest(AuthorityOf(h)), Newest(RatedOf(AuthorityOf(h))), c);
  }

  /** The ladders on a joined row whose dates are the newest capture dates. */
  lemma LadderImplementsTable(j: JoinedRow, newest: Option<int>, newestRated: Option<int>, c: Clock)
    requires j.ldsOutletId.Some? <==> newest.Some?
    requires j.latestSearchDate == newest
    requires j.lvdOutletId.Some? <==> newestRated.Some?
    requires j.latestValidDrDate == newestRated
    ensures DrUpdateReason(j, c) == Some(Text(ClassifyDates(newest, newestRated, c)))
    ensures DrToUpdate(j, c) == Stale(ClassifyDates(newest, newestRated, c))
  {
  }

  /** Only authority measurements take part: an outlet whose linked
      measurements are all traffic data still needs its first DR fetch. */
  lemma OnlyAuthorityCounts(s: Store, outlet: Id, c: Clock)
    requires forall m :: m in History(s, outlet) ==> !IsAuthority(m)
    ensures StatusRow(s, outlet, c).drToUpdate
    ensures StatusRow(s, outlet, c).drUpdateReason == Some(NotFetchedText)
    ensures StatusRow(s, outlet, c).drLatestSearchDate.None?
  {
    var h := History(s, outlet);
    FilterKeepsNone(h, IsAuthority);
    StatusFollowsPolicy(s, outlet, c);
    LatestSearchIsNewest(h);
  }

  /** The cutoffs are strict: a failed search captured exactly one month ago
      still counts as a recent attempt. */
  lemma SearchAtMonthCutoffIsRecent(h: seq<Measurement>, c: Clock)
    requires Newest(AuthorityOf(h)) == Some(c.oneMonthAgo)
    requires Newest(RatedOf(AuthorityOf(h))).None?
    ensures Classify(h, c) == RecentAttempt && !Stale(Classify(h, c))
  {
  }

  /** A rating captured exactly one year ago still counts as current. */
  lemma RatingAtYearCutoffIsFresh(h: seq<Measurement>, c: Clock)
    requires Newest(RatedOf(AuthorityOf(h))) == Some(c.oneYearAgo)
    ensures Classify(h, c) == Fresh && !Stale(Classify(h, c))
  {
    var auth := AuthorityOf(h);
    var m :| m in RatedOf(auth) && m.dataCapturedAt == c.oneYearAgo;
    assert m in auth;
  }
}

=== FILE: ranking.dfy ===
/** The orderings the two views use: `ORDER BY ... DESC` on a key that may be
    NULL, with NULL keys last. Ties keep the order of the input, a fixed
    stand-in for the arbitrary tie order of `row_number()` and `ORDER BY`. */
module Ranking {
  import opened Base

  /** Whether a row with key `a` may come before a row with key `b` under
      `DESC NULLS LAST`. */
  predicate Precedes(a: Option<int>, b: Option<int>) {
    match a
    case None => b.None?
    case Some(x) => b.None? || x >= b.value
  }

  lemma PrecedesTotal(a: Option<int>, b: Option<int>)
    ensures Precedes(a, b) || Precedes(b, a)
  {
  }

  lemma PrecedesTransitive(a: Option<int>, b: Option<int>, c: Option<int>)
    requires Precedes(a, b) && Precedes(b, c)
    ensures Precedes(a, c)
  {
  }

  predicate SortedBy<T>(s: seq<T>, key: T -> Option<int>) {
    forall i, j :: 0 <= i < j < |s| ==> Precedes(key(s[i]), key(s[j]))
  }

  /** Places `x` before the first element it may precede. */
  function Insert<T(==)>(x: T, s: seq<T>, key: T -> Option<int>): (r: seq<T>)
    requires SortedBy(s, key)
    ensures SortedBy(r, key)
    ensures multiset(r) == multiset(s) + multiset{x}
    ensures |r| == |s| + 1
  {
    if |s| == 0 || Precedes(key(x), key(s[0])) then
      forall j | 0 <= j < |s|
        ensures Precedes(key(x), key(s[j]))
      {
        if j > 0 {
          PrecedesTransitive(key(x), key(s[0]), key(s[j]));
        }
      }
      [x] + s
    else
      PrecedesTotal(key(x), key(s[0]));
      var rest := Insert(x, s[1..], key);
      assert s == [s[0]] + s[1..];
      forall j | 0 <= j < |rest|
        ensures Precedes(key(s[0]), key(rest[j]))
      {
        assert rest[j] in multiset(rest);
        if rest[j] != x {
          assert rest[j] in multiset(s[1..]);
          var k :| 0 <= k < |s[1..]| && s[1..][k] == rest[j];
          assert s[k + 1] == rest[j];
        }
      }
      [s[0]] + rest
  }

  /** The ranking: a stable insertion sort, descending by `key`, NULL keys last. */
  function Rank<T(==)>(s: seq<T>, key: T -> Option<int>): (r: seq<T>)
    ensures SortedBy(r, key)
    ensures multiset(r) == multiset(s)
    ensures |r| == |s|
  {
    if |s| == 0 then []
    else
      assert s == [s[0]] + s[1..];
      Insert(s[0], Rank(s[1..], key), key)
  }

  /** The first element of a non-empty ranking comes from the input and no
      input element outranks it. */
  lemma RankHeadIsGreatest<T>(s: seq<T>, key: T -> Option<int>)
    requires |s| > 0
    ensures Rank(s, key)[0] in s
    ensures forall x :: x in s ==> Precedes(key(Rank(s, key)[0]), key(x))
  {
    var r := Rank(s, key);
    assert r[0] in multiset(r);
    forall x | x in s
      ensures Precedes(key(r[0]), key(x))
    {
      assert x in multiset(s);
      var k :| 0 <= k < |r| && r[k] == x;
      if k == 0 {
        PrecedesTotal(key(x), key(x));
      }
    }
  }

  /** Filtering keeps a sorted sequence sorted. */
  lemma FilterKeepsOrder<T(!new)>(s: seq<T>, p: T -> bool, key: T -> Option<int>)
    requires SortedBy(s, key)
    ensures SortedBy(Filter(s, p), key)
  {
    if |s| > 0 {
      FilterKeepsOrder(s[1..], p, key);
      var rest := Filter(s[1..], p);
      if p(s[0]) {
        forall j | 0 <= j < |rest|
          ensures Precedes(key(s[0]), key(rest[j]))
        {
          assert rest[j] in rest;
          var k :| 0 <= k < |s[1..]| && s[1..][k] == rest[j];
          assert s[k + 1] == rest[j];
        }
      }
    }
  }
}

=== FILE: routes.dfy ===
/** The handlers of the outlets router (src/routes/outlets.ts) as functions
    from request fields to a reply, behind the API-key gate. A thrown error
    anywhere inside a handler becomes 500 "Internal server error". */
module Routes {
  import opened Base
  import opened Json
  import opened Schema
  import opened Store
  import opened Staleness
  import opened LowRating
  import opened Policy
  import opened Service
  import opened Append
  import opened Strings
  import opened Http
  import opened Auth
  import opened Uuid

  const OutletIdsRequiredText := "outletIds query parameter is required"
  const InvalidUuidPrefix := "Invalid UUID: "
  const InvalidOutletIdText := "Invalid outlet ID"
  const InvalidBodyText := "Invalid body"
  const CampaignIdRequiredText := "campaignId query parameter is required"
  const InvalidCampaignIdText := "Invalid campaignId"
  const InternalErrorText := "Internal server error"

  /** The JSON body of a reply. */
  datatype Payload =
    | Error(message: string)
    | Statuses(items: seq<DrStatus>)
    | LowStatuses(lows: seq<LowDrStatus>)
    | Inserted(created: Created)

  /** A reply, with whether the handler used the database pool and whether
      it called the outlets service. */
  datatype Reply = Reply(status: int, payload: Payload, usedDb: bool, calledOutlets: bool)

  /** The database a read handler sees: the store, the cutoffs of `now()`,
      whether the read fails, and the `::uuid` conversion. */
  datatype Database = Database(store: Store, clock: Clock, readFails: bool, cast: Cast)

  function BadRequest(message: string): (r: Reply)
    ensures r.status == 400 && !r.usedDb && !r.calledOutlets
  {
    Reply(400, Error(message), false, false)
  }

  /** `!raw || typeof raw !== "string"` rejects the value; otherwise the text. */
  function RequiredText(q: QueryValue): (r: Option<string>)
    ensures r.Some? <==> q.Str? && q.s != ""
    ensures r.Some? ==> r.value == q.s
  {
    match q
    case Str(s) => if s == "" then None else Some(s)
    case _ => None
  }

  /** Whether `WHERE outlet_id = ANY($ids::uuid[])` throws. */
  predicate QueryFails(db: Database, ids: seq<Id>) {
    db.readFails || Raises(ids, db.cast)
  }

  /** `getDrStatus(getPool(), ids)` and `res.json(result)`, the thrown error
      caught as 500. The empty request returns before any query. */
  function ReadStatus(db: Database, ids: seq<Id>, iso: int -> string): (r: Reply)
    ensures r.usedDb <==> |ids| > 0
    ensures !r.calledOutlets
    ensures r.status == 500 <==> |ids| > 0 && QueryFails(db, ids)
    ensures r.status != 500 ==> r.status == 200 && r.payload.Statuses?
    ensures r.status == 200 ==> r.payload.items == GetDrStatus(View(db.store, db.clock), ids, db.cast, iso).value
    ensures |ids| == 0 ==> r.payload == Statuses([])
  {
    if |ids| > 0 && QueryFails(db, ids) then Reply(500, Error(InternalErrorText), true, false)
    else Reply(200, Statuses(GetDrStatus(View(db.store, db.clock), ids, db.cast, iso).value), |ids| > 0, false)
  }

  /** GET /outlets/dr-status?outletIds=... */
  function DrStatusRoute(q: QueryValue, isUuid: string -> bool, db: Database, iso: int -> string): (r: Reply)
    ensures !r.calledOutlets
    ensures r.status == 200 || r.status == 400 || r.status == 500
    ensures RequiredText(q).None? ==> r == BadRequest(OutletIdsRequiredText)
    ensures RequiredText(q).Some? && FirstInvalid(ParseIds(q.s), isUuid).Some? ==>
      r == BadRequest(InvalidUuidPrefix + FirstInvalid(ParseIds(q.s), isUuid).value)
    ensures r.status == 400 <==> RequiredText(q).None? || FirstInvalid(ParseIds(q.s), isUuid).Some?
    ensures r.status == 200 ==>
      && r.payload.Statuses?
      && (forall id :: id in ParseIds(q.s) ==> exists x :: x in r.payload.items && SameUuid(db.cast, x.outletId, id))
      && (forall x :: x in r.payload.items ==> exists id :: id in ParseIds(q.s) && SameUuid(db.cast, x.outletId, id))
    ensures r.usedDb ==> |ParseIds(q.s)| > 0 && forall i :: 0 <= i < |ParseIds(q.s)| ==> isUuid(ParseIds(q.s)[i])
  {
    match RequiredText(q)
    case None => BadRequest(OutletIdsRequiredText)
    case Some(raw) =>
      var ids := ParseIds(raw);
      match FirstInvalid(ids, isUuid)
      case Some(bad) => BadRequest(InvalidUuidPrefix + bad)
      case None => ReadStatus(db, ids, iso)
  }

  /** GET /outlets/dr-stale */
  function DrStaleRoute(db: Database, iso: int -> string): (r: Reply)
    ensures r.usedDb && !r.calledOutlets
    ensures r.status == 500 <==> db.readFails
    ensures r.status != 500 ==> r.status == 200 && r.payload == Statuses(GetDrStale(View(db.store, db.clock), iso))
  {
    if QueryFails(db, []) then Reply(500, Error(InternalErrorText), true, false)
    else Reply(200, Statuses(GetDrStale(View(db.store, db.clock), iso)), true, false)
  }

  /** GET /outlets/low-domain-rating */
  function LowDomainRatingRoute(db: Database, iso: int -> string): (r: Reply)
    ensures r.usedDb && !r.calledOutlets
    ensures r.status == 500 <==> db.readFails
    ensures r.status != 500 ==> r.status == 200 && r.payload == LowStatuses(GetLowDomainRating(LowView(db.store, db.clock), iso))
  {
    if QueryFails(db, []) then Reply(500, Error(InternalErrorText), true, false)
    else Reply(200, LowStatuses(GetLowDomainRating(LowView(db.store, db.clock), iso)), true, false)
  }

  /** PATCH /outlets/:outletId/domain-rating: the outlet id is checked before
      the body; the reply and the store afterwards. */
  function PatchDomainRatingRoute(outletId: string, body: Json, isUuid: string -> bool, isDatetime: string -> bool,
                                  s: Store, env: Env, cast: Cast, timestampOf: string -> int): (r: (Reply, Store))
    ensures !isUuid(outletId) ==> r == (BadRequest(InvalidOutletIdText), s)
    ensures isUuid(outletId) && !ValidBody(body, isDatetime) ==> r == (BadRequest(InvalidBodyText), s)
    ensures r.0.status == 201 || r.0.status == 400 || r.0.status == 500
    ensures r.0.status == 201 <==>
      isUuid(outletId) && ValidBody(body, isDatetime) &&
      WriteGoesThrough(s, outletId, ParseBody(body, isDatetime).value, env, cast, timestampOf)
    ensures r.0.status == 201 ==> r.0.payload == Inserted(Created(env.measurementId, outletId))
    ensures r.0.status == 201 ==>
      r.1 == Store(s.measurements + [InsertRow(ParseBody(body, isDatetime).value, env.measurementId, timestampOf).value],
                   s.links + [Link(env.linkId, cast(outletId).value, env.measurementId)])
    ensures r.0.status != 201 ==> r.1 == s
  {
    if !isUuid(outletId) then (BadRequest(InvalidOutletIdText), s)
    else match ParseBody(body, isDatetime)
    case None => (BadRequest(InvalidBodyText), s)
    case Some(b) =>
      var o := UpdateDomainRating(s, outletId, b, env, cast, timestampOf);
      if o.result.Success? then (Reply(201, Inserted(o.result.value), true, false), o.store)
      else (Reply(500, Error(InternalErrorText), true, false), o.store)
  }

  /** GET /outlets/campaign-categories-dr-status?campaignId=...; `lookup` is
      what the outlets service answers for the campaign, or its failure. */
  function CampaignStatusRoute(q: QueryValue, isUuid: string -> bool, lookup: Result<seq<Id>, string>,
                               db: Database, iso: int -> string): (r: Reply)
    ensures RequiredText(q).None? ==> r == BadRequest(CampaignIdRequiredText)
    ensures RequiredText(q).Some? && !isUuid(q.s) ==> r == BadRequest(InvalidCampaignIdText)
    ensures r.calledOutlets <==> RequiredText(q).Some? && isUuid(q.s)
    ensures r.calledOutlets && lookup.Failure? ==> r.status == 500 && !r.usedDb
    ensures r.calledOutlets && lookup == Success([]) ==> r.status == 200 && r.payload == Statuses([]) && !r.usedDb
    ensures r.calledOutlets && lookup.Success? && |lookup.value| > 0 ==>
      if QueryFails(db, lookup.value) then r == Reply(500, Error(InternalErrorText), true, true)
      else r == Reply(200, Statuses(GetDrStatus(View(db.store, db.clock), lookup.value, db.cast, iso).value), true, true)
    ensures r.status == 200 ==>
      && r.calledOutlets && lookup.Success?
      && r.payload == Statuses(GetDrStatus(View(db.store, db.clock), lookup.value, db.cast, iso).value)
    ensures r.status == 200 || r.status == 400 || r.status == 500
  {
    match RequiredText(q)
    case None => BadRequest(CampaignIdRequiredText)
    case Some(campaignId) =>
      if !isUuid(campaignId) then BadRequest(InvalidCampaignIdText)
      else match lookup
      case Failure(_) => Reply(500, Error(InternalErrorText), false, true)
      case Success(ids) =>
        if |ids| == 0 then Reply(200, Statuses([]), false, true)
        else ReadStatus(db, ids, iso).(calledOutlets := true)
  }

  /** A route behind `authMiddleware`: a rejected request is answered by the
      gate and reaches neither the database nor the outlets service. */
  function Guarded(apiKey: string, provided: Header, handled: Reply): (r: Reply)
    ensures AuthMiddleware(apiKey, provided).Reject? ==>
      r.status == 401 && r.payload == Error(UnauthorizedText) && !r.usedDb && !r.calledOutlets
    ensures AuthMiddleware(apiKey, provided).Next? ==> r == handled
  {
    match AuthMiddleware(apiKey, provided)
    case Reject(status, error) => Reply(status, Error(error), false, false)
    case Next => handled
  }

  /** PATCH behind the gate: a rejected request leaves the store alone. */
  function GuardedPatch(apiKey: string, provided: Header, handled: (Reply, Store), s: Store): (r: (Reply, Store))
    ensures AuthMiddleware(apiKey, provided).Reject? ==> r.0.status == 401 && r.1 == s
    ensures AuthMiddleware(apiKey, provided).Next? ==> r == handled
  {
    (Guarded(apiKey, provided, handled.0), if AuthMiddleware(apiKey, provided).Next? then handled.1 else s)
  }

  /** Every id reaches the database as sent: joining valid ids with commas
      and requesting them answers through the service, provided Postgres
      accepts what the UUID check accepts. */
  lemma DrStatusRoundTrip(ids: seq<Id>, isUuid: string -> bool, db: Database, iso: int -> string)
    requires |ids| > 0
    requires forall i :: 0 <= i < |ids| ==> ids[i] != "" && Trimmed(ids[i]) && ',' !in ids[i] && isUuid(ids[i])
    requires forall t :: isUuid(t) ==> db.cast(t).Some?
    requires !db.readFails
    ensures DrStatusRoute(Str(Join(ids, ',')), isUuid, db, iso) ==
      Reply(200, Statuses(GetDrStatus(View(db.store, db.clock), ids, db.cast, iso).value), true, false)
  {
    var raw := Join(ids, ',');
    JoinStartsWithFirst(ids, ',');
    assert RequiredText(Str(raw)) == Some(raw);
    ParseIdsJoin(ids);
    assert FirstInvalid(ids, isUuid) == None;
    assert !QueryFails(db, ids);
    assert ReadStatus(db, ids, iso) == Reply(200, Statuses(GetDrStatus(View(db.store, db.clock), ids, db.cast, iso).value), true, false);
  }

  lemma {:induction false} JoinStartsWithFirst(parts: seq<string>, sep: char)
    requires |parts| > 0
    ensures |Join(parts, sep)| >= |parts[0]|
  {
  }

  /** A list that parses to nothing, such as ",", is served as an empty
      array without any query, while an empty value is a 400. */
  lemma SeparatorsOnlyIsEmptyList(isUuid: string -> bool, db: Database, iso: int -> string)
    ensures DrStatusRoute(Str(","), isUuid, db, iso) == Reply(200, Statuses([]), false, false)
    ensures DrStatusRoute(Str(""), isUuid, db, iso) == BadRequest(OutletIdsRequiredText)
  {
    ParseIdsSeparatorOnly();
    assert FirstInvalid([], isUuid) == None;
    assert ReadStatus(db, [], iso) == Reply(200, Statuses([]), false, false);
  }

  /** Every record a status reply carries agrees with the staleness policy
      applied to the history stored under that outlet's UUID. */
  lemma DrStatusReplyFollowsPolicy(q: QueryValue, isUuid: string -> bool, db: Database, iso: int -> string)
    requires DrStatusRoute(q, isUuid, db, iso).status == 200
    ensures forall x :: x in DrStatusRoute(q, isUuid, db, iso).payload.items ==>
      && db.cast(x.outletId).Some?
      && x.drUpdateReason == Some(Text(Classify(History(db.store, db.cast(x.outletId).value), db.clock)))
      && x.needsUpdate == Stale(Classify(History(db.store, db.cast(x.outletId).value), db.clock))
  {
    StatusAgreesWithPolicy(db.store, db.clock, ParseIds(q.s), db.cast, iso);
  }

  /** Whatever the handler would do, a request without the right key gets
      401 and the store is untouched; with the right key the handler runs. */
  lemma GateDecidesPatch(apiKey: string, provided: Header, outletId: string, body: Json, isUuid: string -> bool,
                         isDatetime: string -> bool, s: Store, env: Env, cast: Cast, timestampOf: string -> int)
    ensures provided != Single(apiKey) || apiKey == "" ==>
      GuardedPatch(apiKey, provided, PatchDomainRatingRoute(outletId, body, isUuid, isDatetime, s, env, cast, timestampOf), s)
        == (Reply(401, Error(UnauthorizedText), false, false), s)
    ensures provided == Single(apiKey) && apiKey != "" ==>
      GuardedPatch(apiKey, provided, PatchDomainRatingRoute(outletId, body, isUuid, isDatetime, s, env, cast, timestampOf), s)
        == PatchDomainRatingRoute(outletId, body, isUuid, isDatetime, s, env, cast, timestampOf)
  {
  }
}

=== FILE: scenarios.dfy ===
/** The two worked examples of the staleness policy, on a store holding one
    authority scrape for one outlet. Time is counted in days here. */
module Scenarios {
  import opened Base
  import opened Json
  import opened Schema
  import opened Store
  import opened Ranking
  import opened Staleness
  import opened LowRating
  import opened Policy
  import opened Service
  import opened Append
  import opened Uuid

  const Now := 1000
  const Days := Clock(Now - 30, Now - 365)

  /** An authority scrape with the given rating and nothing else filled in. */
  function Scrape(id: Id, at: int, rating: Option<int>): Measurement {
    Measurement(id, "", "", at, Authority, None, JObj(map[]),
                rating, None, None, None, None, None, None, None,
                None, None, None, None, None, None, None, None, None, None, None)
  }

  function OneScrapeStore(outlet: Id, linkId: Id, m: Measurement): Store {
    Store([m], [Link(linkId, outlet, m.id)])
  }

  /** With one rated authority scrape, the view reports that scrape's
      rating and date, the policy's reason, and one row. */
  lemma OneScrape(outlet: Id, linkId: Id, m: Measurement, c: Clock)
    requires IsAuthority(m) && HasRating(m)
    ensures History(OneScrapeStore(outlet, linkId, m), outlet) == [m]
    ensures View(OneScrapeStore(outlet, linkId, m), c) == [StatusRow(OneScrapeStore(outlet, linkId, m), outlet, c)]
    ensures StatusRow(OneScrapeStore(outlet, linkId, m), outlet, c).latestValidDr == m.authorityDomainRating
    ensures StatusRow(OneScrapeStore(outlet, linkId, m), outlet, c).drUpdateReason ==
      Some(Text(ClassifyDates(Some(m.dataCapturedAt), Some(m.dataCapturedAt), c)))
  {
    var s := OneScrapeStore(outlet, linkId, m);
    assert WithId([m], m.id) == [m];
    assert s.links[1..] == [];
    assert Joined(s.links, s.measurements, outlet) == [m] + Joined([], s.measurements, outlet);
    assert Filter([m], IsAuthority) == [m];
    assert Filter([m], HasRating) == [m];
    assert Newest([m]) == Some(m.dataCapturedAt);
    var ranked := Searches([m]);
    assert ranked == [m] by {
      assert m in ranked;
      assert |ranked| <= 1 by {
        assert multiset(ranked) == multiset(Filter([m], IsAuthority));
      }
    }
    assert FirstRated(ranked) == Some(0);
    assert LinkedOutlets(s.links) == [outlet];
    StatusFollowsPolicy(s, outlet, c);
  }

  /** An outlet last rated 45, 400 days ago, is "DR outdated", needs an
      update, and is not in the low-rating list. */
  lemma OutdatedHighRating(iso: int -> string)
    ensures var s := OneScrapeStore("O1", "L1", Scrape("M1", Now - 400, Some(45)));
      && StatusRow(s, "O1", Days).drUpdateReason == Some(OutdatedText)
      && StatusRow(s, "O1", Days).needsUpdate
      && StatusRow(s, "O1", Days).latestValidDr == Some(45)
      && GetLowDomainRating(LowView(s, Days), iso) == []
  {
    var m := Scrape("M1", Now - 400, Some(45));
    var s := OneScrapeStore("O1", "L1", m);
    OneScrape("O1", "L1", m, Days);
    LowViewAnnotatesEveryRow(s, Days);
    forall r | r in LowView(s, Days)
      ensures !IsLow(r)
    {
    }
    FilterKeepsNone(LowView(s, Days), IsLow);
  }

  /** An outlet rated 5, ten days ago, is "DR exists < 1 year", needs no
      update, and is in the low-rating list with the flag set. */
  lemma FreshLowRating(iso: int -> string)
    ensures var s := OneScrapeStore("O2", "L2", Scrape("M2", Now - 10, Some(5)));
      && StatusRow(s, "O2", Days).drUpdateReason == Some(FreshText)
      && !StatusRow(s, "O2", Days).needsUpdate
      && exists x :: x in GetLowDomainRating(LowView(s, Days), iso) &&
           x.status.outletId == "O2" && x.hasLowDomainRating == Some(true)
  {
    var m := Scrape("M2", Now - 10, Some(5));
    var s := OneScrapeStore("O2", "L2", m);
    OneScrape("O2", "L2", m, Days);
    LowViewAnnotatesEveryRow(s, Days);
    var row := StatusRow(s, "O2", Days);
    assert row in View(s, Days);
    assert Annotate(row) in LowView(s, Days);
    assert IsLow(Annotate(row));
    assert MapLowRow(Annotate(row), iso) in GetLowDomainRating(LowView(s, Days), iso);
  }

  /** Asking for one measured and one never-measured outlet, each in
      canonical spelling, gives exactly two records: the view's row, then
      the synthesised default. */
  lemma KnownAndUnknown(cast: Cast, iso: int -> string)
    requires cast("O2") == Some("O2") && cast("X") == Some("X")
    ensures var s := OneScrapeStore("O2", "L2", Scrape("M2", Now - 10, Some(5)));
      GetDrStatus(View(s, Days), ["O2", "X"], cast, iso) == Some([MapDrRow(StatusRow(s, "O2", Days), iso), Unknown("X")])
  {
    var m := Scrape("M2", Now - 10, Some(5));
    var s := OneScrapeStore("O2", "L2", m);
    OneScrape("O2", "L2", m, Days);
    OneRowAndOneUnknown(StatusRow(s, "O2", Days), "X", cast, iso);
  }

  /** Over a one-row view, the row's outlet and another outlet, both in
      canonical spelling, are answered by the row and then a default. */
  lemma OneRowAndOneUnknown(row: ViewRow, x: Id, cast: Cast, iso: int -> string)
    requires IsCanonical(cast, row.outletId) && IsCanonical(cast, x) && row.outletId != x
    ensures GetDrStatus([row], [row.outletId, x], cast, iso) == Some([MapDrRow(row, iso), Unknown(x)])
  {
    var o := row.outletId;
    var ids := [o, x];
    assert !Raises(ids, cast);
    var found := Found([row], ids, cast);
    assert found == [row] by {
      assert Keys(ids, cast) == {o, x} by {
        assert cast(ids[0]) == Some(o) && cast(ids[1]) == Some(x);
      }
      assert RowsFor([row], {o, x}) == [row] + RowsFor([], {o, x});
    }
    var missing := Unmatched(ids, OutletIdsOf(found), cast);
    assert missing == [x] by {
      assert OutletIdsOf([row]) == {o};
      assert Unmatched(ids, {o}, cast) == [] + Unmatched([x], {o}, cast);
      assert Unmatched([x], {o}, cast) == [x] + Unmatched([], {o}, cast);
    }
    GetDrStatusOrder([row], ids, cast, iso);
    AssembleOneAndOne(row, x, iso);
  }

  lemma AssembleOneAndOne(row: ViewRow, x: Id, iso: int -> string)
    ensures Assemble([row], [x], iso) == [MapDrRow(row, iso), Unknown(x)]
  {
    var r := Assemble([row], [x], iso);
    assert |r| == 2 && r[0] == MapDrRow(row, iso) && r[1] == Unknown(x);
  }

  /** An outlet id in upper-case hex, as a client may send it. */
  const UpperId := "11111111-AAAA-1111-1111-111111111111"

  /** The finding on concrete data: an outlet linked (and so stored) under
      its lower-case spelling, rated ten days ago, requested in upper case.
      As written the reply holds its "DR exists < 1 year" row and also a
      "No DR fetched yet" default; decided by UUID it holds the row alone. */
  lemma UpperCaseIdOfLinkedOutlet(iso: int -> string)
    ensures var s := OneScrapeStore(LowerAscii(UpperId), "L3", Scrape("M3", Now - 10, Some(5)));
      var row := StatusRow(s, LowerAscii(UpperId), Days);
      && row.drUpdateReason == Some(FreshText)
      && GetDrStatusAsWritten(View(s, Days), [UpperId], Hyphenated(), iso) == Some([MapDrRow(row, iso), Unknown(UpperId)])
      && Unknown(UpperId).drUpdateReason == Some(NotFetchedText)
      && GetDrStatus(View(s, Days), [UpperId], Hyphenated(), iso) == Some([MapDrRow(row, iso)])
  {
    var key := LowerAscii(UpperId);
    var m := Scrape("M3", Now - 10, Some(5));
    var s := OneScrapeStore(key, "L3", m);
    var cast := Hyphenated();
    UpperIdSpellsKey();
    assert IsLinked(s.links, key) by {
      assert s.links[0] in s.links;
    }
    OneScrape(key, "L3", m, Days);
    NonCanonicalIdAnsweredTwice(s, Days, UpperId, cast, iso);
  }

  /** The upper-case spelling converts to the lower-case one, which it is not. */
  lemma UpperIdSpellsKey()
    ensures Hyphenated()(UpperId) == Some(LowerAscii(UpperId))
    ensures LowerAscii(UpperId) != UpperId
  {
    assert 'A' <= UpperId[9] <= 'Z';
    CaseIsNotIdentity(UpperId);
  }

  /** A write whose link insert fails leaves no orphaned measurement: the
      store is as before and the new id is nowhere in it. */
  lemma NoOrphanAfterLinkFailure(s: Store, outletId: Id, b: UpdateBody, env: Env, cast: Cast, timestampOf: string -> int)
    requires WellTyped(b)
    requires InsertLink in env.faults
    requires env.measurementId !in MeasurementIds(s.measurements)
    ensures UpdateDomainRating(s, outletId, b, env, cast, timestampOf).result.Failure?
    ensures env.measurementId !in MeasurementIds(UpdateDomainRating(s, outletId, b, env, cast, timestampOf).store.measurements)
  {
  }
}

=== FILE: schema.dfy ===
/** The request body accepted by the domain-rating write and the response
    records of the status endpoints (src/schemas/apify-ahref.ts). */
module Schema {
  import opened Base
  import opened Json

  /** The `ahref_data_type` enumeration. */
  datatype DataType = Authority | Traffic

  function DataTypeName(t: DataType): string {
    match t
    case Authority => "authority"
    case Traffic => "traffic"
  }

  /** The enumeration check of `dataTypeSchema`: only the two names parse. */
  function ParseDataType(s: string): (r: Option<DataType>)
    ensures r.Some? <==> s == "authority" || s == "traffic"
    ensures r.Some? ==> DataTypeName(r.value) == s
  {
    if s == "authority" then Some(Authority)
    else if s == "traffic" then Some(Traffic)
    else None
  }

  lemma DataTypeNameRoundTrip(t: DataType)
    ensures ParseDataType(DataTypeName(t)) == Some(t)
  {
  }

  /** What a field of the body schema admits. */
  datatype Kind =
    | DataTypeEnum     // dataTypeSchema, required
    | DateTime         // z.string().datetime(), required
    | OptionalString   // z.string().optional()
    | Record           // z.record(z.unknown()), required
    | NullableInteger  // z.number().int().nullable().optional()
    | NullableNumber   // z.number().nullable().optional()
    | NullableUnknown  // z.unknown().nullable().optional()

  datatype FieldSpec = FieldSpec(name: string, kind: Kind)

  /** `updateDomainRatingBodySchema`, one entry per declared key, in
      declaration order. */
  const BodySchema: seq<FieldSpec> := [
    FieldSpec("dataType", DataTypeEnum),
    FieldSpec("dataCapturedAt", DateTime),
    FieldSpec("urlInput", OptionalString),
    FieldSpec("domain", OptionalString),
    FieldSpec("mode", OptionalString),
    FieldSpec("rawData", Record),
    FieldSpec("authorityDomainRating", NullableInteger),
    FieldSpec("authorityUrlRating", NullableInteger),
    FieldSpec("authorityBacklinks", NullableInteger),
    FieldSpec("authorityRefdomains", NullableInteger),
    FieldSpec("authorityDofollowBacklinks", NullableInteger),
    FieldSpec("authorityDofollowRefdomains", NullableInteger),
    FieldSpec("trafficMonthlyAvg", NullableInteger),
    FieldSpec("costMonthlyAvg", NullableNumber),
    FieldSpec("trafficHistory", NullableUnknown),
    FieldSpec("trafficTopPages", NullableUnknown),
    FieldSpec("trafficTopCountries", NullableUnknown),
    FieldSpec("trafficTopKeywords", NullableUnknown),
    FieldSpec("overallSearchTraffic", NullableNumber),
    FieldSpec("overallSearchTrafficHistory", NullableUnknown),
    FieldSpec("overallSearchTrafficValue", NullableNumber),
    FieldSpec("overallSearchTrafficValueHistory", NullableUnknown),
    FieldSpec("overallSearchTrafficByCountry", NullableUnknown),
    FieldSpec("trafficByCountry", NullableUnknown),
    FieldSpec("overallSearchTrafficKeywords", NullableUnknown)
  ]

  function FieldNames(): set<string> {
    set i | 0 <= i < |BodySchema| :: BodySchema[i].name
  }

  /** The value under key `k` of a parsed JSON object; `None` when the key is absent. */
  function Lookup(m: map<string, Json>, k: string): (r: Option<Json>)
    ensures r.Some? <==> k in m
    ensures r.Some? ==> r.value == m[k]
  {
    if k in m then Some(m[k]) else None
  }

  /** Whether a field of the given kind accepts `v` (None: key absent). The
      datetime format check is a parameter. */
  predicate Admits(kind: Kind, v: Option<Json>, isDatetime: string -> bool) {
    match kind
    case DataTypeEnum => v.Some? && v.value.JStr? && ParseDataType(v.value.s).Some?
    case DateTime => v.Some? && v.value.JStr? && isDatetime(v.value.s)
    case OptionalString => v.None? || v.value.JStr?
    case Record => v.Some? && v.value.JObj?
    case NullableInteger => v.None? || v.value.JNull? || (v.value.JNum? && IsInteger(v.value.n))
    case NullableNumber => v.None? || v.value.JNull? || v.value.JNum?
    case NullableUnknown => true
  }

  /** Every declared field of the schema admits what the object holds under its key. */
  predicate FieldsAdmitted(m: map<string, Json>, isDatetime: string -> bool) {
    forall i :: 0 <= i < |BodySchema| ==> Admits(BodySchema[i].kind, Lookup(m, BodySchema[i].name), isDatetime)
  }

  /** `updateDomainRatingBodySchema.safeParse(raw).success`. */
  predicate ValidBody(raw: Json, isDatetime: string -> bool) {
    raw.JObj? && FieldsAdmitted(raw.fields, isDatetime)
  }

  /** A parsed body: only the declared keys survive (zod strips the others). */
  datatype UpdateBody = UpdateBody(fields: map<string, Json>)

  /** A datetime check that accepts every string, for the static shape of a parsed body. */
  predicate AnyText(s: string) {
    true
  }

  /** The static type `z.infer<typeof updateDomainRatingBodySchema>`. */
  predicate WellTyped(b: UpdateBody) {
    b.fields.Keys <= FieldNames() && FieldsAdmitted(b.fields, AnyText)
  }

  /** `updateDomainRatingBodySchema.safeParse(raw)`: the stripped body, or
      `None` when the schema rejects it. */
  function ParseBody(raw: Json, isDatetime: string -> bool): (r: Option<UpdateBody>)
    ensures r.Some? <==> ValidBody(raw, isDatetime)
    ensures r.Some? ==> WellTyped(r.value)
    ensures r.Some? ==> r.value.fields.Keys == raw.fields.Keys * FieldNames()
    ensures r.Some? ==> forall k :: k in r.value.fields ==> r.value.fields[k] == raw.fields[k]
  {
    if ValidBody(raw, isDatetime) then
      var kept := map k | k in raw.fields && k in FieldNames() :: raw.fields[k];
      assert forall i :: 0 <= i < |BodySchema| ==> Lookup(kept, BodySchema[i].name) == Lookup(raw.fields, BodySchema[i].name);
      Some(UpdateBody(kept))
    else
      None
  }

  /** Parsing is idempotent: re-parsing a parsed body gives it back unchanged. */
  lemma ParseBodyIdempotent(raw: Json, isDatetime: string -> bool)
    requires ParseBody(raw, isDatetime).Some?
    ensures ParseBody(JObj(ParseBody(raw, isDatetime).value.fields), isDatetime) == ParseBody(raw, isDatetime)
  {
    var b := ParseBody(raw, isDatetime).value;
    assert forall i :: 0 <= i < |BodySchema| ==> Lookup(b.fields, BodySchema[i].name) == Lookup(raw.fields, BodySchema[i].name);
    var kept := map k | k in b.fields && k in FieldNames() :: b.fields[k];
    assert kept == b.fields;
  }

  /** `dataType` is required and only "authority" or "traffic" are accepted. */
  lemma DataTypeRequired(raw: Json, isDatetime: string -> bool)
    requires raw.JObj?
    ensures ValidBody(raw, isDatetime) ==>
      Lookup(raw.fields, "dataType") in {Some(JStr("authority")), Some(JStr("traffic"))}
  {
    if ValidBody(raw, isDatetime) {
      assert BodySchema[0] == FieldSpec("dataType", DataTypeEnum);
    }
  }

  /** `dataCapturedAt` and `rawData` are required; a `rawData` that is not an object is rejected. */
  lemma CapturedAtAndRawDataRequired(raw: Json, isDatetime: string -> bool)
    requires ValidBody(raw, isDatetime)
    ensures "dataCapturedAt" in raw.fields && raw.fields["dataCapturedAt"].JStr?
    ensures isDatetime(raw.fields["dataCapturedAt"].s)
    ensures "rawData" in raw.fields && raw.fields["rawData"].JObj?
  {
    assert BodySchema[1] == FieldSpec("dataCapturedAt", DateTime);
    assert BodySchema[5] == FieldSpec("rawData", Record);
  }

  /** The smallest accepted body: the three required keys; every other field
      may be absent. */
  function MinimalBody(dataType: DataType, capturedAt: string, rawData: map<string, Json>): Json {
    JObj(map["dataType" := JStr(DataTypeName(dataType)), "dataCapturedAt" := JStr(capturedAt), "rawData" := JObj(rawData)])
  }

  lemma MinimalBodyAccepted(dataType: DataType, capturedAt: string, rawData: map<string, Json>, isDatetime: string -> bool)
    requires isDatetime(capturedAt)
    ensures ValidBody(MinimalBody(dataType, capturedAt, rawData), isDatetime)
  {
    var m := MinimalBody(dataType, capturedAt, rawData).fields;
    forall i | 0 <= i < |BodySchema|
      ensures Admits(BodySchema[i].kind, Lookup(m, BodySchema[i].name), isDatetime)
    {
      if i > 5 {
        OptionalFields(i);
        AbsentFromMinimal(BodySchema[i].name, dataType, capturedAt, rawData);
      }
    }
  }

  /** The fields after `rawData` are nullable and optional, and their names
      start neither like `dataType`/`dataCapturedAt` nor like `rawData`. */
  lemma OptionalFields(i: int)
    requires 5 < i < |BodySchema|
    ensures |BodySchema[i].name| > 0 && BodySchema[i].name[0] != 'd' && BodySchema[i].name[0] != 'r'
    ensures BodySchema[i].kind in {NullableInteger, NullableNumber, NullableUnknown}
  {
  }

  lemma AbsentFromMinimal(n: string, dataType: DataType, capturedAt: string, rawData: map<string, Json>)
    requires |n| > 0 && n[0] != 'd' && n[0] != 'r'
    ensures Lookup(MinimalBody(dataType, capturedAt, rawData).fields, n).None?
  {
    assert n != "dataType" && n != "dataCapturedAt" && n != "rawData";
  }

  /** An integer field rejects a fractional number and accepts null; an
      optional string field rejects null. */
  lemma FieldKindsDiscriminate(isDatetime: string -> bool)
    ensures !Admits(NullableInteger, Some(JNum(4.5)), isDatetime)
    ensures Admits(NullableInteger, Some(JNull), isDatetime)
    ensures Admits(NullableInteger, Some(JNum(45.0)), isDatetime)
    ensures !Admits(OptionalString, Some(JNull), isDatetime)
    ensures !Admits(DataTypeEnum, Some(JStr("invalid")), isDatetime)
  {
    assert (4.5).Floor == 4;
  }

  // Typed reads of a parsed body, as the service's `body.x` accesses.

  function DataTypeOf(b: UpdateBody): (t: DataType)
    requires WellTyped(b)
    ensures Lookup(b.fields, "dataType") == Some(JStr(DataTypeName(t)))
  {
    assert BodySchema[0] == FieldSpec("dataType", DataTypeEnum);
    ParseDataType(b.fields["dataType"].s).value
  }

  function CapturedAtText(b: UpdateBody): (s: string)
    requires WellTyped(b)
    ensures Lookup(b.fields, "dataCapturedAt") == Some(JStr(s))
  {
    assert BodySchema[1] == FieldSpec("dataCapturedAt", DateTime);
    b.fields["dataCapturedAt"].s
  }

  function RawDataOf(b: UpdateBody): (r: map<string, Json>)
    requires WellTyped(b)
    ensures Lookup(b.fields, "rawData") == Some(JObj(r))
  {
    assert BodySchema[5] == FieldSpec("rawData", Record);
    b.fields["rawData"].fields
  }

  /** `body.k` for an optional string field: the string, or None when absent. */
  function TextField(b: UpdateBody, k: string): (r: Option<string>)
    ensures r.Some? <==> Lookup(b.fields, k).Some? && b.fields[k].JStr?
    ensures r.Some? ==> b.fields[k] == JStr(r.value)
  {
    if k in b.fields && b.fields[k].JStr? then Some(b.fields[k].s) else None
  }

  /** `body.k ?? null` for a numeric field: the number, or None when absent or null. */
  function NumberField(b: UpdateBody, k: string): (r: Option<real>)
    ensures r.Some? <==> Lookup(b.fields, k).Some? && b.fields[k].JNum?
    ensures r.Some? ==> b.fields[k] == JNum(r.value)
  {
    if k in b.fields && b.fields[k].JNum? then Some(b.fields[k].n) else None
  }

  /** `body.k ? JSON.stringify(body.k) : null`: the value when present and
      truthy, None otherwise. */
  function TruthyField(b: UpdateBody, k: string): (r: Option<Json>)
    ensures r.Some? <==> Lookup(b.fields, k).Some? && Truthy(b.fields[k])
    ensures r.Some? ==> r.value == b.fields[k]
  {
    if k in b.fields && Truthy(b.fields[k]) then Some(b.fields[k]) else None
  }

  // Response records (drStatusResponseSchema, lowDrResponseSchema). The
  // schema's "integer or null" and "string or null" are the field types.

  datatype DrStatus = DrStatus(
    outletId: string,
    drToUpdate: bool,
    drUpdateReason: Option<string>,
    drLatestSearchDate: Option<string>,
    latestValidDr: Option<int>,
    latestValidDrDate: Option<string>,
    needsUpdate: bool)

  /** A status record extended with the nullable low-rating flag. */
  datatype LowDrStatus = LowDrStatus(status: DrStatus, hasLowDomainRating: Option<bool>)
}

=== FILE: service.dfy ===
/** The read side of the domain-rating service (src/services/ahref.ts):
    status for a list of outlets, the stale list and the low-rating list,
    each a projection of the views. `iso` stands for `Date.toISOString`. */
module Service {
  import opened Base
  import opened Schema
  import opened Store
  import opened Ranking
  import opened Staleness
  import opened LowRating
  import opened Policy
  import opened Uuid

  /** `mapDrRow`: a view row in the response shape; dates become ISO text,
      a NULL date stays null, every other column passes through. */
  function MapDrRow(row: ViewRow, iso: int -> string): (r: DrStatus)
    ensures r.outletId == row.outletId
    ensures r.drToUpdate == row.drToUpdate && r.needsUpdate == row.needsUpdate
    ensures r.drUpdateReason == row.drUpdateReason
    ensures r.latestValidDr == row.latestValidDr
    ensures r.drLatestSearchDate.None? <==> row.drLatestSearchDate.None?
    ensures r.latestValidDrDate.None? <==> row.latestValidDrDate.None?
    ensures row.drLatestSearchDate.Some? ==> r.drLatestSearchDate == Some(iso(row.drLatestSearchDate.value))
    ensures row.latestValidDrDate.Some? ==> r.latestValidDrDate == Some(iso(row.latestValidDrDate.value))
  {
    DrStatus(
      row.outletId,
      row.drToUpdate,
      row.drUpdateReason,
      if row.drLatestSearchDate.Some? then Some(iso(row.drLatestSearchDate.value)) else None,
      row.latestValidDr,
      if row.latestValidDrDate.Some? then Some(iso(row.latestValidDrDate.value)) else None,
      row.needsUpdate)
  }

  /** The record synthesised for a requested outlet the view does not know. */
  function Unknown(id: Id): DrStatus {
    DrStatus(id, true, Some(NotFetchedText), None, None, None, true)
  }

  /** Whether `ARRAY[$1, ...]::uuid[]` raises: some requested text is not a UUID. */
  predicate Raises(ids: seq<Id>, cast: Cast) {
    exists i :: 0 <= i < |ids| && cast(ids[i]).None?
  }

  /** The values of `ARRAY[$1, ...]::uuid[]`, each in canonical spelling. */
  function Keys(ids: seq<Id>, cast: Cast): (r: set<Id>)
    requires !Raises(ids, cast)
    ensures forall k :: k in r <==> exists i :: 0 <= i < |ids| && cast(ids[i]) == Some(k)
  {
    set i | 0 <= i < |ids| :: cast(ids[i]).value
  }

  /** Every key is canonical: it converts to itself. */
  lemma KeysCanonical(ids: seq<Id>, cast: Cast, k: Id)
    requires !Raises(ids, cast)
    requires k in Keys(ids, cast)
    ensures IsCanonical(cast, k)
  {
    var i :| 0 <= i < |ids| && cast(ids[i]) == Some(k);
    CanonicalOfAccepted(cast, ids[i]);
  }

  /** A request repeating one id has that id's UUID as its only key. */
  lemma KeysOfOne(ids: seq<Id>, id: Id, cast: Cast)
    requires |ids| > 0 && cast(id).Some?
    requires forall i :: 0 <= i < |ids| ==> ids[i] == id
    ensures !Raises(ids, cast)
    ensures Keys(ids, cast) == {cast(id).value}
  {
    assert cast(ids[0]) == Some(cast(id).value);
  }

  /** The rows of `WHERE outlet_id = ANY(keys)`. The query has no ORDER BY;
      the model returns them in view order. */
  function RowsFor(view: seq<ViewRow>, keys: set<Id>): (r: seq<ViewRow>)
    ensures forall row :: row in r <==> row in view && row.outletId in keys
  {
    if |view| == 0 then []
    else (if view[0].outletId in keys then [view[0]] else []) + RowsFor(view[1..], keys)
  }

  lemma {:induction false} RowsForNone(view: seq<ViewRow>, keys: set<Id>)
    requires forall row :: row in view ==> row.outletId !in keys
    ensures RowsFor(view, keys) == []
  {
    if |view| > 0 {
      assert view[0] in view;
      RowsForNone(view[1..], keys);
    }
  }

  /** When exactly one row is about `key`, the query for `key` returns that row. */
  lemma {:induction false} RowsForOne(view: seq<ViewRow>, key: Id, i: int)
    requires 0 <= i < |view| && view[i].outletId == key
    requires forall j :: 0 <= j < |view| && j != i ==> view[j].outletId != key
    ensures RowsFor(view, {key}) == [view[i]]
  {
    if i == 0 {
      forall row | row in view[1..]
        ensures row.outletId !in {key}
      {
        var j :| 0 <= j < |view[1..]| && view[1..][j] == row;
        assert view[j + 1] == row;
      }
      RowsForNone(view[1..], {key});
    } else {
      RowsForOne(view[1..], key, i - 1);
    }
  }

  /** The query returns no outlet twice when the view has none twice. */
  lemma {:induction false} RowsForDistinct(view: seq<ViewRow>, keys: set<Id>)
    requires DistinctBy(view, OutletOf)
    ensures DistinctBy(RowsFor(view, keys), OutletOf)
  {
    if |view| > 0 {
      DistinctTail(view, OutletOf);
      RowsForDistinct(view[1..], keys);
      if view[0].outletId in keys {
        DistinctCons(view[0], RowsFor(view[1..], keys), OutletOf);
      }
    }
  }

  /** The rows the status query returns for `ids`. */
  function Found(view: seq<ViewRow>, ids: seq<Id>, cast: Cast): (r: seq<ViewRow>)
    requires !Raises(ids, cast)
    ensures forall row :: row in r <==> row in view && row.outletId in Keys(ids, cast)
    ensures forall row :: row in r ==> IsCanonical(cast, row.outletId)
  {
    var r := RowsFor(view, Keys(ids, cast));
    forall row | row in r
      ensures IsCanonical(cast, row.outletId)
    {
      KeysCanonical(ids, cast, row.outletId);
    }
    r
  }

  function OutletIdsOf(rows: seq<ViewRow>): (r: set<Id>)
    ensures forall id :: id in r <==> exists row :: row in rows && row.outletId == id
  {
    set row | row in rows :: row.outletId
  }

  /** As written (`!foundIds.has(id)`): the requested ids whose TEXT is not
      among the returned outlet ids, in input order, once per occurrence. */
  function MissingIds(ids: seq<Id>, found: set<Id>): (r: seq<Id>)
    ensures forall id :: id in r <==> id in ids && id !in found
  {
    if |ids| == 0 then []
    else (if ids[0] in found then [] else [ids[0]]) + MissingIds(ids[1..], found)
  }

  /** Corrected: the requested ids whose UUID is not among the returned
      outlet ids, in input order, once per occurrence. */
  function Unmatched(ids: seq<Id>, found: set<Id>, cast: Cast): (r: seq<Id>)
    ensures forall id :: id in r <==> id in ids && !(cast(id).Some? && cast(id).value in found)
  {
    if |ids| == 0 then []
    else (if cast(ids[0]).Some? && cast(ids[0]).value in found then [] else [ids[0]]) + Unmatched(ids[1..], found, cast)
  }

  lemma {:induction false} UnmatchedAll(ids: seq<Id>, found: set<Id>, cast: Cast)
    requires forall id :: id in ids ==> !(cast(id).Some? && cast(id).value in found)
    ensures Unmatched(ids, found, cast) == ids
  {
    if |ids| > 0 {
      assert ids[0] in ids;
      UnmatchedAll(ids[1..], found, cast);
      assert ids == [ids[0]] + ids[1..];
    }
  }

  /** The mapped found rows, then one default record per missing id. */
  function Assemble(found: seq<ViewRow>, missing: seq<Id>, iso: int -> string): (r: seq<DrStatus>)
    ensures |r| == |found| + |missing|
    ensures forall i :: 0 <= i < |found| ==> r[i] == MapDrRow(found[i], iso)
    ensures forall i :: 0 <= i < |missing| ==> r[|found| + i] == Unknown(missing[i])
  {
    seq(|found| + |missing|, i requires 0 <= i < |found| + |missing| =>
      if i < |found| then MapDrRow(found[i], iso) else Unknown(missing[i - |found|]))
  }

  /** `getDrStatus` as written: the found rows mapped, then one default per
      requested id whose text is not among the returned outlet ids, which
      Postgres spells canonically. A non-canonical spelling of a linked
      outlet therefore gets both its row and a default. */
  function GetDrStatusAsWritten(view: seq<ViewRow>, ids: seq<Id>, cast: Cast, iso: int -> string): (r: Option<seq<DrStatus>>)
    ensures r.None? <==> |ids| > 0 && Raises(ids, cast)
    ensures |ids| == 0 ==> r == Some([])
    ensures r.Some? ==> forall id :: id in ids ==> exists x :: x in r.value && SameUuid(cast, x.outletId, id)
    ensures r.Some? ==> forall x :: x in r.value ==> exists id :: id in ids && SameUuid(cast, x.outletId, id)
    ensures r.Some? ==> forall id :: id in ids && !HasRowFor(view, id) ==> Unknown(id) in r.value
  {
    if |ids| == 0 then Some([])
    else if Raises(ids, cast) then None
    else
      var found := Found(view, ids, cast);
      var missing := MissingIds(ids, OutletIdsOf(found));
      TextMissingCoversUnmatched(found, ids, cast);
      CoversRequested(found, missing, ids, cast, iso);
      CoversOnlyRequested(found, missing, ids, cast, iso);
      DefaultsForUnlinked(view, found, ids, iso);
      var r := Assemble(found, missing, iso);
      Some(r)
  }

  /** An id whose UUID was not returned is not returned as text either. */
  lemma TextMissingCoversUnmatched(found: seq<ViewRow>, ids: seq<Id>, cast: Cast)
    requires forall row :: row in found ==> IsCanonical(cast, row.outletId)
    ensures forall id :: id in ids && !(cast(id).Some? && cast(id).value in OutletIdsOf(found)) ==>
      id in MissingIds(ids, OutletIdsOf(found))
  {
    forall id | id in ids && id in OutletIdsOf(found)
      ensures cast(id).Some? && cast(id).value in OutletIdsOf(found)
    {
      var row :| row in found && row.outletId == id;
    }
  }

  /** As written, a requested text that no view row carries gets a default. */
  lemma DefaultsForUnlinked(view: seq<ViewRow>, found: seq<ViewRow>, ids: seq<Id>, iso: int -> string)
    requires forall row :: row in found ==> row in view
    ensures forall id :: id in ids && !HasRowFor(view, id) ==>
      Unknown(id) in Assemble(found, MissingIds(ids, OutletIdsOf(found)), iso)
  {
    var missing := MissingIds(ids, OutletIdsOf(found));
    var r := Assemble(found, missing, iso);
    forall id | id in ids && !HasRowFor(view, id)
      ensures Unknown(id) in r
    {
      var i :| 0 <= i < |missing| && missing[i] == id;
      assert r[|found| + i] == Unknown(id);
    }
  }

  /** `getDrStatus`, with the defaults decided by UUID: an empty request
      returns at once, a text that is not a UUID makes the query raise, and
      otherwise every requested outlet is answered, by records about
      requested outlets only. */
  function GetDrStatus(view: seq<ViewRow>, ids: seq<Id>, cast: Cast, iso: int -> string): (r: Option<seq<DrStatus>>)
    ensures r.None? <==> |ids| > 0 && Raises(ids, cast)
    ensures |ids| == 0 ==> r == Some([])
    ensures r.Some? ==> forall id :: id in ids ==> exists x :: x in r.value && SameUuid(cast, x.outletId, id)
    ensures r.Some? ==> forall x :: x in r.value ==> exists id :: id in ids && SameUuid(cast, x.outletId, id)
  {
    if |ids| == 0 then Some([])
    else if Raises(ids, cast) then None
    else
      var found := Found(view, ids, cast);
      var missing := Unmatched(ids, OutletIdsOf(found), cast);
      CoversRequested(found, missing, ids, cast, iso);
      CoversOnlyRequested(found, missing, ids, cast, iso);
      Some(Assemble(found, missing, iso))
  }

  /** Every requested UUID is answered, by a found row or a default. */
  lemma CoversRequested(found: seq<ViewRow>, missing: seq<Id>, ids: seq<Id>, cast: Cast, iso: int -> string)
    requires !Raises(ids, cast)
    requires forall id :: id in ids && !(cast(id).Some? && cast(id).value in OutletIdsOf(found)) ==> id in missing
    ensures forall id :: id in ids ==> exists x :: x in Assemble(found, missing, iso) && SameUuid(cast, x.outletId, id)
  {
    var r := Assemble(found, missing, iso);
    forall id | id in ids
      ensures exists x :: x in r && SameUuid(cast, x.outletId, id)
    {
      var n :| 0 <= n < |ids| && ids[n] == id;
      assert cast(id).Some?;
      if cast(id).value in OutletIdsOf(found) {
        var row :| row in found && row.outletId == cast(id).value;
        var i :| 0 <= i < |found| && found[i] == row;
        assert r[i].outletId == row.outletId;
        CanonicalOfAccepted(cast, id);
      } else {
        var i :| 0 <= i < |missing| && missing[i] == id;
        assert r[|found| + i] == Unknown(id);
      }
    }
  }

  /** Every record answers a requested UUID. */
  lemma CoversOnlyRequested(found: seq<ViewRow>, missing: seq<Id>, ids: seq<Id>, cast: Cast, iso: int -> string)
    requires !Raises(ids, cast)
    requires forall row :: row in found ==> row.outletId in Keys(ids, cast)
    requires forall id :: id in missing ==> id in ids
    ensures forall x :: x in Assemble(found, missing, iso) ==> exists id :: id in ids && SameUuid(cast, x.outletId, id)
  {
    var r := Assemble(found, missing, iso);
    forall x | x in r
      ensures exists id :: id in ids && SameUuid(cast, x.outletId, id)
    {
      var k :| 0 <= k < |r| && r[k] == x;
      if k < |found| {
        var row := found[k];
        assert row in found;
        var i :| 0 <= i < |ids| && cast(ids[i]) == Some(row.outletId);
        CanonicalOfAccepted(cast, ids[i]);
        assert SameUuid(cast, x.outletId, ids[i]);
      } else {
        var id := missing[k - |found|];
        assert id in missing;
        var n :| 0 <= n < |ids| && ids[n] == id;
        assert SameUuid(cast, x.outletId, id);
      }
    }
  }

  /** Output order: the mapped found rows come first, then the synthesised
      records in request order. */
  lemma GetDrStatusOrder(view: seq<ViewRow>, ids: seq<Id>, cast: Cast, iso: int -> string)
    requires |ids| > 0 && !Raises(ids, cast)
    ensures GetDrStatus(view, ids, cast, iso) ==
      Some(Assemble(Found(view, ids, cast), Unmatched(ids, OutletIdsOf(Found(view, ids, cast)), cast), iso))
    ensures forall id :: id in Unmatched(ids, OutletIdsOf(Found(view, ids, cast)), cast) <==>
      id in ids && !HasRowFor(view, cast(id).value)
  {
    var keys := Keys(ids, cast);
    var found := Found(view, ids, cast);
    forall id | id in ids
      ensures cast(id).value in OutletIdsOf(found) <==> HasRowFor(view, cast(id).value)
    {
      var n :| 0 <= n < |ids| && ids[n] == id;
      assert cast(id).value in keys;
      if HasRowFor(view, cast(id).value) {
        var i :| 0 <= i < |view| && view[i].outletId == cast(id).value;
        assert view[i] in found;
      }
      if cast(id).value in OutletIdsOf(found) {
        var row :| row in found && row.outletId == cast(id).value;
        var i :| 0 <= i < |view| && view[i] == row;
      }
    }
  }

  /** A duplicated unknown id is synthesised once per occurrence: a request
      for the same never-measured outlet twice yields two records. */
  lemma DuplicateUnknownRepeated(view: seq<ViewRow>, id: Id, cast: Cast, iso: int -> string)
    requires cast(id).Some?
    requires forall row :: row in view ==> row.outletId != cast(id).value
    ensures GetDrStatus(view, [id, id], cast, iso) == Some([Unknown(id), Unknown(id)])
  {
    var keys := Keys([id, id], cast);
    KeysOfOne([id, id], id, cast);
    RowsForNone(view, keys);
    assert OutletIdsOf([]) == {};
    UnmatchedAll([id, id], {}, cast);
    assert Assemble([], [id, id], iso) == [Unknown(id), Unknown(id)];
  }

  /** The finding in `getDrStatus`: asking for a linked outlet in a
      non-canonical spelling (upper-case hex, say) yields the outlet's row
      AND a "No DR fetched yet" default, contradicting the row whenever the
      outlet has been searched; decided by UUID, only the row comes back. */
  lemma NonCanonicalIdAnsweredTwice(s: Store, c: Clock, id: Id, cast: Cast, iso: int -> string)
    requires cast(id).Some? && cast(id).value != id
    requires IsLinked(s.links, cast(id).value)
    ensures GetDrStatusAsWritten(View(s, c), [id], cast, iso) ==
      Some([MapDrRow(StatusRow(s, cast(id).value, c), iso), Unknown(id)])
    ensures GetDrStatus(View(s, c), [id], cast, iso) == Some([MapDrRow(StatusRow(s, cast(id).value, c), iso)])
    ensures Classify(History(s, cast(id).value), c) != NotFetched ==>
      StatusRow(s, cast(id).value, c).drUpdateReason != Unknown(id).drUpdateReason
  {
    FoundForLinked(s, c, id, cast);
    AsWrittenForOne(View(s, c), id, cast, StatusRow(s, cast(id).value, c), iso);
    CorrectedForOne(View(s, c), id, cast, StatusRow(s, cast(id).value, c), iso);
    StatusFollowsPolicy(s, cast(id).value, c);
  }

  lemma AsWrittenForOne(view: seq<ViewRow>, id: Id, cast: Cast, row: ViewRow, iso: int -> string)
    requires cast(id).Some? && row.outletId != id
    requires Found(view, [id], cast) == [row]
    ensures GetDrStatusAsWritten(view, [id], cast, iso) == Some([MapDrRow(row, iso), Unknown(id)])
  {
    assert !Raises([id], cast);
    var found := Found(view, [id], cast);
    var missing := MissingIds([id], OutletIdsOf(found));
    assert OutletIdsOf(found) == {row.outletId} by {
      assert forall x :: x in found <==> x == row;
    }
    assert missing == [id] by {
      assert MissingIds([id], {row.outletId}) == [id] + MissingIds([], {row.outletId});
    }
    var r := Assemble(found, missing, iso);
    assert r == [MapDrRow(row, iso), Unknown(id)] by {
      assert |r| == 2 && r[0] == MapDrRow(row, iso) && r[1] == Unknown(id);
    }
  }

  lemma CorrectedForOne(view: seq<ViewRow>, id: Id, cast: Cast, row: ViewRow, iso: int -> string)
    requires cast(id) == Some(row.outletId)
    requires Found(view, [id], cast) == [row]
    ensures GetDrStatus(view, [id], cast, iso) == Some([MapDrRow(row, iso)])
  {
    var found := Found(view, [id], cast);
    assert OutletIdsOf(found) == {row.outletId};
    assert Unmatched([id], {row.outletId}, cast) == [] + Unmatched([], {row.outletId}, cast);
    assert Assemble(found, [], iso) == [MapDrRow(row, iso)];
  }

  /** A request for one spelling of a linked outlet finds that outlet's row. */
  lemma FoundForLinked(s: Store, c: Clock, id: Id, cast: Cast)
    requires cast(id).Some?
    requires IsLinked(s.links, cast(id).value)
    ensures !Raises([id], cast)
    ensures Found(View(s, c), [id], cast) == [StatusRow(s, cast(id).value, c)]
  {
    var key := cast(id).value;
    var view := View(s, c);
    ViewHasOneRowPerLinkedOutlet(s, c);
    assert HasRowFor(view, key);
    var i :| 0 <= i < |view| && view[i].outletId == key;
    KeysOfOne([id], id, cast);
    RowsForOne(view, key, i);
  }

  /** Decided by UUID, a requested outlet that has a view row is answered by
      exactly one record, its row, however many spellings of it the request
      repeats. */
  lemma LinkedOutletAnsweredOnce(s: Store, c: Clock, ids: seq<Id>, cast: Cast, iso: int -> string, id: Id)
    requires !Raises(ids, cast)
    requires id in ids && cast(id).Some?
    requires IsLinked(s.links, cast(id).value)
    ensures var r := GetDrStatus(View(s, c), ids, cast, iso).value;
      exists k :: 0 <= k < |r| && r[k] == MapDrRow(StatusRow(s, cast(id).value, c), iso) &&
        forall j :: 0 <= j < |r| && SameUuid(cast, r[j].outletId, id) ==> j == k
  {
    var view := View(s, c);
    var row := LinkedRow(s, c, cast(id).value);
    var i :| 0 <= i < |view| && view[i] == row;
    ViewHasOneRowPerLinkedOutlet(s, c);
    assert DistinctBy(view, OutletOf);
    RowAnsweredOnce(view, ids, cast, iso, id, i);
  }

  /** The same for any view in which no outlet has two rows. */
  lemma RowAnsweredOnce(view: seq<ViewRow>, ids: seq<Id>, cast: Cast, iso: int -> string, id: Id, i: int)
    requires !Raises(ids, cast)
    requires id in ids && cast(id).Some?
    requires DistinctBy(view, OutletOf)
    requires 0 <= i < |view| && view[i].outletId == cast(id).value
    ensures var r := GetDrStatus(view, ids, cast, iso).value;
      exists k :: 0 <= k < |r| && r[k] == MapDrRow(view[i], iso) &&
        forall j :: 0 <= j < |r| && SameUuid(cast, r[j].outletId, id) ==> j == k
  {
    var found := Found(view, ids, cast);
    var missing := Unmatched(ids, OutletIdsOf(found), cast);
    GetDrStatusAssembles(view, ids, cast, iso);
    var k := FoundAt(view, ids, cast, id, i);
    UnmatchedMisses(ids, OutletIdsOf(found), cast, found[k].outletId);
    AnsweredOnlyByRow(found, missing, cast, iso, id, k);
    var r := Assemble(found, missing, iso);
    assert 0 <= k < |r| && r[k] == MapDrRow(view[i], iso);
  }

  /** The view row of a requested UUID is returned, at one position, and no
      returned outlet repeats. */
  lemma FoundAt(view: seq<ViewRow>, ids: seq<Id>, cast: Cast, id: Id, i: int) returns (k: int)
    requires !Raises(ids, cast)
    requires id in ids && cast(id).Some?
    requires DistinctBy(view, OutletOf)
    requires 0 <= i < |view| && view[i].outletId == cast(id).value
    ensures 0 <= k < |Found(view, ids, cast)| && Found(view, ids, cast)[k] == view[i]
    ensures view[i].outletId in OutletIdsOf(Found(view, ids, cast))
    ensures DistinctBy(Found(view, ids, cast), OutletOf)
  {
    var found := Found(view, ids, cast);
    var n :| 0 <= n < |ids| && ids[n] == id;
    assert cast(id).value in Keys(ids, cast);
    assert view[i] in found;
    k :| 0 <= k < |found| && found[k] == view[i];
    RowsForDistinct(view, Keys(ids, cast));
  }

  /** A non-empty request that does not raise is answered by the found
      rows and the defaults for the unmatched ids. */
  lemma GetDrStatusAssembles(view: seq<ViewRow>, ids: seq<Id>, cast: Cast, iso: int -> string)
    requires |ids| > 0 && !Raises(ids, cast)
    ensures GetDrStatus(view, ids, cast, iso) ==
      Some(Assemble(Found(view, ids, cast), Unmatched(ids, OutletIdsOf(Found(view, ids, cast)), cast), iso))
  {
  }

  /** No unmatched id names a UUID that was returned. */
  lemma UnmatchedMisses(ids: seq<Id>, found: set<Id>, cast: Cast, key: Id)
    requires key in found
    ensures forall m :: m in Unmatched(ids, found, cast) ==> cast(m) != Some(key)
  {
  }

  /** Among the assembled records, only the `k`-th, made from the one found
      row about `id`'s UUID, names that UUID, when no found row repeats an
      outlet and no default is for that UUID. */
  lemma AnsweredOnlyByRow(found: seq<ViewRow>, missing: seq<Id>, cast: Cast, iso: int -> string, id: Id, k: int)
    requires 0 <= k < |found| && cast(id) == Some(found[k].outletId)
    requires DistinctBy(found, OutletOf)
    requires forall row :: row in found ==> IsCanonical(cast, row.outletId)
    requires forall m :: m in missing ==> cast(m) != cast(id)
    ensures var r := Assemble(found, missing, iso);
      r[k] == MapDrRow(found[k], iso) &&
      forall j :: 0 <= j < |r| && SameUuid(cast, r[j].outletId, id) ==> j == k
  {
    var r := Assemble(found, missing, iso);
    forall j | |found| <= j < |r|
      ensures !SameUuid(cast, r[j].outletId, id)
    {
      assert missing[j - |found|] in missing;
    }
    forall j | 0 <= j < |found| && SameUuid(cast, r[j].outletId, id)
      ensures j == k
    {
      assert found[j] in found;
      assert OutletOf(found[j]) == OutletOf(found[k]);
    }
  }

  /** Status is total and consistent with the policy: every record, found
      or synthesised, names a UUID and carries the reason the policy
      assigns to that outlet's history in the store; an unknown outlet's
      history is empty. */
  lemma StatusAgreesWithPolicy(s: Store, c: Clock, ids: seq<Id>, cast: Cast, iso: int -> string)
    requires !Raises(ids, cast)
    ensures forall x :: x in GetDrStatus(View(s, c), ids, cast, iso).value ==>
      && cast(x.outletId).Some?
      && x.drUpdateReason == Some(Text(Classify(History(s, cast(x.outletId).value), c)))
      && x.needsUpdate == Stale(Classify(History(s, cast(x.outletId).value), c))
      && x.drToUpdate == x.needsUpdate
  {
    if |ids| > 0 {
      var r := GetDrStatus(View(s, c), ids, cast, iso).value;
      forall x | x in r
        ensures cast(x.outletId).Some?
        ensures x.drUpdateReason == Some(Text(Classify(History(s, cast(x.outletId).value), c)))
        ensures x.needsUpdate == Stale(Classify(History(s, cast(x.outletId).value), c))
        ensures x.drToUpdate == x.needsUpdate
      {
        var k :| 0 <= k < |r| && r[k] == x;
        RecordAgreesWithPolicy(s, c, ids, cast, iso, k);
      }
    }
  }

  lemma RecordAgreesWithPolicy(s: Store, c: Clock, ids: seq<Id>, cast: Cast, iso: int -> string, k: int)
    requires |ids| > 0 && !Raises(ids, cast)
    requires 0 <= k < |GetDrStatus(View(s, c), ids, cast, iso).value|
    ensures var x := GetDrStatus(View(s, c), ids, cast, iso).value[k];
      && cast(x.outletId).Some?
      && x.drUpdateReason == Some(Text(Classify(History(s, cast(x.outletId).value), c)))
      && x.needsUpdate == Stale(Classify(History(s, cast(x.outletId).value), c))
      && x.drToUpdate == x.needsUpdate
  {
    var view := View(s, c);
    var found := Found(view, ids, cast);
    var missing := Unmatched(ids, OutletIdsOf(found), cast);
    GetDrStatusOrder(view, ids, cast, iso);
    if k < |found| {
      FoundRecordAgrees(s, c, found, missing, cast, iso, k);
    } else {
      MissingRecordAgrees(s, c, found, missing, cast, iso, k);
    }
  }

  /** A record made from a found row carries the policy's verdict. */
  lemma FoundRecordAgrees(s: Store, c: Clock, found: seq<ViewRow>, missing: seq<Id>, cast: Cast, iso: int -> string, k: int)
    requires forall row :: row in found ==> row in View(s, c) && IsCanonical(cast, row.outletId)
    requires 0 <= k < |found|
    ensures var x := Assemble(found, missing, iso)[k];
      && cast(x.outletId).Some?
      && x.drUpdateReason == Some(Text(Classify(History(s, cast(x.outletId).value), c)))
      && x.needsUpdate == Stale(Classify(History(s, cast(x.outletId).value), c))
      && x.drToUpdate == x.needsUpdate
  {
    assert found[k] in found;
    FoundRowAgrees(s, c, found[k]);
  }

  /** A default record for an unmatched id carries the policy's verdict. */
  lemma MissingRecordAgrees(s: Store, c: Clock, found: seq<ViewRow>, missing: seq<Id>, cast: Cast, iso: int -> string, k: int)
    requires forall id :: id in missing ==> cast(id).Some? && !HasRowFor(View(s, c), cast(id).value)
    requires |found| <= k < |found| + |missing|
    ensures var x := Assemble(found, missing, iso)[k];
      && cast(x.outletId).Some?
      && x.drUpdateReason == Some(Text(Classify(History(s, cast(x.outletId).value), c)))
      && x.needsUpdate == Stale(Classify(History(s, cast(x.outletId).value), c))
      && x.drToUpdate == x.needsUpdate
  {
    var id := missing[k - |found|];
    assert id in missing;
    MissingIdAgrees(s, c, id, cast);
  }

  lemma FoundRowAgrees(s: Store, c: Clock, row: ViewRow)
    requires row in View(s, c)
    ensures row.drUpdateReason == Some(Text(Classify(History(s, row.outletId), c)))
    ensures row.needsUpdate == Stale(Classify(History(s, row.outletId), c))
    ensures row.drToUpdate == row.needsUpdate
  {
    var view := View(s, c);
    var i :| 0 <= i < |view| && view[i] == row;
    StatusFollowsPolicy(s, row.outletId, c);
  }

  lemma MissingIdAgrees(s: Store, c: Clock, id: Id, cast: Cast)
    requires cast(id).Some?
    requires !HasRowFor(View(s, c), cast(id).value)
    ensures Unknown(id).drUpdateReason == Some(Text(Classify(History(s, cast(id).value), c)))
    ensures Unknown(id).needsUpdate == Stale(Classify(History(s, cast(id).value), c))
  {
    ViewHasOneRowPerLinkedOutlet(s, c);
    UnlinkedHistoryEmpty(s, cast(id).value, c);
  }

  /** An outlet without links has no history. */
  lemma UnlinkedHistoryEmpty(s: Store, o: Id, c: Clock)
    requires !IsLinked(s.links, o)
    ensures History(s, o) == []
    ensures Classify(History(s, o), c) == NotFetched
  {
    JoinedUnlinked(s.links, s.measurements, o);
  }

  lemma {:induction false} JoinedUnlinked(ls: seq<Link>, ms: seq<Measurement>, o: Id)
    requires !IsLinked(ls, o)
    ensures Joined(ls, ms, o) == []
  {
    if |ls| > 0 {
      assert ls[0] in ls;
      assert forall l :: l in ls[1..] ==> l in ls;
      JoinedUnlinked(ls[1..], ms, o);
    }
  }

  /** The `WHERE needs_update = true` of the stale query. */
  predicate NeedsUpdate(row: ViewRow) {
    row.needsUpdate
  }

  function OutletOf(row: ViewRow): Id {
    row.outletId
  }

  /** `getDrStale`: the view rows with `needs_update = true`, mapped, each
      once and in view order. */
  function GetDrStale(view: seq<ViewRow>, iso: int -> string): (r: seq<DrStatus>)
    ensures forall x :: x in r ==> x.needsUpdate
    ensures forall x :: x in r <==> exists row :: row in view && row.needsUpdate && x == MapDrRow(row, iso)
    ensures |r| == |Filter(view, NeedsUpdate)|
    ensures forall i :: 0 <= i < |r| ==> r[i] == MapDrRow(Filter(view, NeedsUpdate)[i], iso)
  {
    var stale := Filter(view, NeedsUpdate);
    var r := Map(stale, (row: ViewRow) => MapDrRow(row, iso));
    forall x | x in r
      ensures exists row :: row in view && row.needsUpdate && x == MapDrRow(row, iso)
    {
      var i :| 0 <= i < |r| && r[i] == x;
      assert stale[i] in stale;
    }
    forall row | row in view && row.needsUpdate
      ensures MapDrRow(row, iso) in r
    {
      var i :| 0 <= i < |stale| && stale[i] == row;
      assert r[i] == MapDrRow(row, iso);
    }
    r
  }

  /** The stale list names exactly the linked outlets the policy calls
      stale, each once. */
  lemma StaleListMatchesPolicy(s: Store, c: Clock, iso: int -> string)
    ensures forall x :: x in GetDrStale(View(s, c), iso) ==>
      IsLinked(s.links, x.outletId) && Stale(Classify(History(s, x.outletId), c))
    ensures forall o :: IsLinked(s.links, o) && Stale(Classify(History(s, o), c)) ==>
      exists x :: x in GetDrStale(View(s, c), iso) && x.outletId == o
    ensures var r := GetDrStale(View(s, c), iso);
      forall i, j :: 0 <= i < j < |r| ==> r[i].outletId != r[j].outletId
  {
    var view := View(s, c);
    StaleListOncePerOutlet(s, c, iso);
    forall x | x in GetDrStale(view, iso)
      ensures IsLinked(s.links, x.outletId) && Stale(Classify(History(s, x.outletId), c))
    {
      var row :| row in view && row.needsUpdate && x == MapDrRow(row, iso);
      RowIsLinked(s, c, row);
      FoundRowAgrees(s, c, row);
    }
    forall o | IsLinked(s.links, o) && Stale(Classify(History(s, o), c))
      ensures exists x :: x in GetDrStale(view, iso) && x.outletId == o
    {
      var row := LinkedRow(s, c, o);
      FoundRowAgrees(s, c, row);
      assert MapDrRow(row, iso) in GetDrStale(view, iso);
    }
  }

  /** No outlet appears twice in the stale list, because none appears twice
      in the view. */
  lemma StaleListOncePerOutlet(s: Store, c: Clock, iso: int -> string)
    ensures var r := GetDrStale(View(s, c), iso);
      forall i, j :: 0 <= i < j < |r| ==> r[i].outletId != r[j].outletId
  {
    var view := View(s, c);
    ViewHasOneRowPerLinkedOutlet(s, c);
    assert DistinctBy(view, OutletOf);
    FilterKeepsDistinct(view, NeedsUpdate, OutletOf);
    var stale := Filter(view, NeedsUpdate);
    var r := GetDrStale(view, iso);
    forall i, j | 0 <= i < j < |r|
      ensures r[i].outletId != r[j].outletId
    {
      assert r[i].outletId == OutletOf(stale[i]) && r[j].outletId == OutletOf(stale[j]);
    }
  }

  /** A view row belongs to a linked outlet. */
  lemma RowIsLinked(s: Store, c: Clock, row: ViewRow)
    requires row in View(s, c)
    ensures IsLinked(s.links, row.outletId)
  {
    ViewHasOneRowPerLinkedOutlet(s, c);
    var i :| 0 <= i < |View(s, c)| && View(s, c)[i] == row;
    assert HasRowFor(View(s, c), row.outletId);
  }

  /** The view row of a linked outlet. */
  lemma LinkedRow(s: Store, c: Clock, o: Id) returns (row: ViewRow)
    requires IsLinked(s.links, o)
    ensures row in View(s, c) && row.outletId == o
  {
    ViewHasOneRowPerLinkedOutlet(s, c);
    assert HasRowFor(View(s, c), o);
    var i :| 0 <= i < |View(s, c)| && View(s, c)[i].outletId == o;
    row := View(s, c)[i];
  }

  predicate IsLow(r: LowRow) {
    r.hasLowDomainRating == Some(true)
  }

  function MapLowRow(r: LowRow, iso: int -> string): LowDrStatus {
    LowDrStatus(MapDrRow(r.row, iso), r.hasLowDomainRating)
  }

  /** `getLowDomainRating`: the low-rating rows with the flag true, in view
      order, each mapped and carrying its flag. */
  function GetLowDomainRating(low: seq<LowRow>, iso: int -> string): (r: seq<LowDrStatus>)
    ensures forall x :: x in r ==> x.hasLowDomainRating == Some(true)
    ensures forall x :: x in r <==> exists row :: row in low && IsLow(row) && x == MapLowRow(row, iso)
    ensures |r| == |Filter(low, IsLow)|
    ensures forall i :: 0 <= i < |r| ==> r[i] == MapLowRow(Filter(low, IsLow)[i], iso)
  {
    var rows := Filter(low, IsLow);
    var r := Map(rows, (row: LowRow) => MapLowRow(row, iso));
    forall x | x in r
      ensures exists row :: row in low && IsLow(row) && x == MapLowRow(row, iso)
    {
      var i :| 0 <= i < |r| && r[i] == x;
      assert rows[i] in rows;
    }
    forall row | row in low && IsLow(row)
      ensures MapLowRow(row, iso) in r
    {
      var i :| 0 <= i < |rows| && rows[i] == row;
      assert r[i] == MapLowRow(row, iso);
    }
    r
  }

  /** The low-rating list holds exactly the linked outlets whose newest valid
      rating is below the threshold, with that rating. */
  lemma LowListMatchesRatings(s: Store, c: Clock, iso: int -> string)
    ensures forall x :: x in GetLowDomainRating(LowView(s, c), iso) ==>
      x.status.latestValidDr.Some? && x.status.latestValidDr.value < LowThreshold && IsLinked(s.links, x.status.outletId)
    ensures forall row :: row in View(s, c) && row.latestValidDr.Some? && row.latestValidDr.value < LowThreshold ==>
      MapLowRow(Annotate(row), iso) in GetLowDomainRating(LowView(s, c), iso)
  {
    var view := View(s, c);
    var low := LowView(s, c);
    LowViewAnnotatesEveryRow(s, c);
    ViewHasOneRowPerLinkedOutlet(s, c);
    forall x | x in GetLowDomainRating(low, iso)
      ensures x.status.latestValidDr.Some? && x.status.latestValidDr.value < LowThreshold && IsLinked(s.links, x.status.outletId)
    {
      var row :| row in low && IsLow(row) && x == MapLowRow(row, iso);
      var i :| 0 <= i < |view| && view[i] == row.row;
      assert HasRowFor(view, row.row.outletId);
    }
  }

  /** The low-rating list is newest search first: its i-th record is made from
      the i-th of a list of rows sorted by search date. Every record has a
      search date, since a rated outlet has been searched. */
  lemma LowListNewestSearchFirst(s: Store, c: Clock, iso: int -> string)
    ensures var r := GetLowDomainRating(LowView(s, c), iso);
      var rows := Filter(LowView(s, c), IsLow);
      && SortedBy(rows, SearchKey)
      && |r| == |rows|
      && (forall i :: 0 <= i < |r| ==> r[i] == MapLowRow(rows[i], iso))
    ensures forall x :: x in GetLowDomainRating(LowView(s, c), iso) ==> x.status.drLatestSearchDate.Some?
  {
    var low := LowView(s, c);
    var rows := Filter(low, IsLow);
    var r := GetLowDomainRating(low, iso);
    FilterKeepsOrder(low, IsLow, SearchKey);
    forall x | x in r
      ensures x.status.drLatestSearchDate.Some?
    {
      var row :| row in low && IsLow(row) && x == MapLowRow(row, iso);
      LowRowSearched(s, c, row);
    }
  }

  /** A flagged low-view row has a valid DR, so it was searched. */
  lemma LowRowSearched(s: Store, c: Clock, row: LowRow)
    requires row in LowView(s, c) && IsLow(row)
    ensures row.row.drLatestSearchDate.Some?
  {
    LowViewAnnotatesEveryRow(s, c);
    var view := View(s, c);
    var i :| 0 <= i < |view| && view[i] == row.row;
    RatedRowSearched(s, LinkedOutlets(s.links)[i], c);
  }
}

=== FILE: staleness.dfy ===
/** The view `v_outlets_domain_rating_to_update` as a pure function of the
    store: for each outlet with at least one link, when its domain rating was
    last searched, its newest valid rating, and whether (and why) it needs a
    new fetch. */
module Staleness {
  import opened Base
  import opened Schema
  import opened Store
  import opened Ranking

  /** `now() - '1 mon'::interval` and `now() - '1 year'::interval`, taken as given. */
  datatype Clock = Clock(oneMonthAgo: int, oneYearAgo: int)

  // The five values of `dr_update_reason`.
  const NotFetchedText := "No DR fetched yet"
  const RetryText := "DR fetch to retry"
  const OutdatedText := "DR outdated"
  const FreshText := "DR exists < 1 year"
  const RecentAttemptText := "DR attempt < 1 month"

  /** The reasons that ask for a new fetch. */
  predicate AsksForUpdate(reason: Option<string>) {
    reason == Some(NotFetchedText) || reason == Some(RetryText) || reason == Some(OutdatedText)
  }

  // ---------------------------------------------------------------------
  // outlet_dr_searches, latest_dr_search, latest_valid_dr

  function CaptureKey(m: Measurement): Option<int> {
    Some(m.dataCapturedAt)
  }

  /** `outlet_dr_searches` for one outlet: its authority measurements ranked
      by `data_captured_at DESC` (rank 1 first). */
  function Searches(h: seq<Measurement>): (r: seq<Measurement>)
    ensures forall m :: m in r <==> m in h && IsAuthority(m)
    ensures SortedBy(r, CaptureKey)
  {
    var auth := Filter(h, IsAuthority);
    var r := Rank(auth, CaptureKey);
    assert forall m :: m in r <==> m in multiset(auth);
    r
  }

  /** `latest_dr_search`: the row with `search_rank = 1`, whatever its rating. */
  function LatestSearch(ranked: seq<Measurement>): (r: Option<Measurement>)
    ensures r.Some? <==> |ranked| > 0
    ensures r.Some? ==> r.value == ranked[0]
  {
    if |ranked| > 0 then Some(ranked[0]) else None
  }

  /** The position of the first rated row of a ranking. */
  function FirstRated(ranked: seq<Measurement>): (r: Option<nat>)
    ensures r.None? <==> forall m :: m in ranked ==> !HasRating(m)
    ensures r.Some? ==> r.value < |ranked| && HasRating(ranked[r.value])
    ensures r.Some? ==> forall j :: 0 <= j < r.value ==> !HasRating(ranked[j])
  {
    if |ranked| == 0 then None
    else if HasRating(ranked[0]) then Some(0)
    else
      match FirstRated(ranked[1..])
      case None => None
      case Some(k) => Some(k + 1)
  }

  /** `latest_valid_dr`: `DISTINCT ON (outlet_id) ... ORDER BY search_rank`
      over the rows with a non-null rating, i.e. the best-ranked rated row. */
  function LatestValid(ranked: seq<Measurement>): (r: Option<Measurement>)
    ensures r.None? <==> forall m :: m in ranked ==> !HasRating(m)
    ensures r.Some? ==> r.value in ranked && HasRating(r.value)
  {
    match FirstRated(ranked)
    case None => None
    case Some(k) => Some(ranked[k])
  }

  // ---------------------------------------------------------------------
  // dr_update_status

  /** The columns of `ahref_outlets aho LEFT JOIN latest_dr_search lds LEFT
      JOIN latest_valid_dr lvd` that the CASE ladders read; every joined
      column is nullable. */
  datatype JoinedRow = JoinedRow(
    outletId: Id,
    ldsOutletId: Option<Id>,
    latestSearchDate: Option<int>,
    lvdOutletId: Option<Id>,
    latestValidDr: Option<int>,
    latestValidDrDate: Option<int>)

  /** What the NOT NULL `data_captured_at` column guarantees of a joined row:
      a matched side carries its date. */
  predicate DatesPresent(j: JoinedRow) {
    && (j.ldsOutletId.Some? ==> j.latestSearchDate.Some?)
    && (j.lvdOutletId.Some? ==> j.latestValidDrDate.Some?)
  }

  function JoinRow(outlet: Id, ranked: seq<Measurement>): (j: JoinedRow)
    ensures DatesPresent(j)
    ensures j.outletId == outlet
  {
    var lds := LatestSearch(ranked);
    var lvd := LatestValid(ranked);
    JoinedRow(
      outlet,
      if lds.Some? then Some(outlet) else None,
      if lds.Some? then Some(lds.value.dataCapturedAt) else None,
      if lvd.Some? then Some(outlet) else None,
      if lvd.Some? then lvd.value.authorityDomainRating else None,
      if lvd.Some? then Some(lvd.value.dataCapturedAt) else None)
  }

  // SQL three-valued logic: None is UNKNOWN.

  function LessThan(a: Option<int>, b: int): Option<bool> {
    if a.None? then None else Some(a.value < b)
  }

  function AtLeast(a: Option<int>, b: int): Option<bool> {
    if a.None? then None else Some(a.value >= b)
  }

  function And(a: Option<bool>, b: Option<bool>): Option<bool> {
    if a == Some(false) || b == Some(false) then Some(false)
    else if a.None? || b.None? then None
    else Some(true)
  }

  function IsNull<T>(a: Option<T>): Option<bool> {
    Some(a.None?)
  }

  /** A `WHEN` branch is taken only when its condition is TRUE (not UNKNOWN). */
  predicate When(c: Option<bool>) {
    c == Some(true)
  }

  /** The `dr_update_reason` CASE ladder, first match wins, `ELSE NULL`. It
      is never NULL on a row whose matched sides carry their dates. */
  function DrUpdateReason(j: JoinedRow, c: Clock): (r: Option<string>)
    ensures DatesPresent(j) ==> r.Some?
    ensures r.Some? ==> r.value in {NotFetchedText, RetryText, OutdatedText, FreshText, RecentAttemptText}
    ensures r == Some(NotFetchedText) <==> j.ldsOutletId.None?
  {
    if When(IsNull(j.ldsOutletId)) then Some(NotFetchedText)
    else if When(And(IsNull(j.lvdOutletId), LessThan(j.latestSearchDate, c.oneMonthAgo))) then Some(RetryText)
    else if When(LessThan(j.latestValidDrDate, c.oneYearAgo)) then Some(OutdatedText)
    else if When(AtLeast(j.latestValidDrDate, c.oneYearAgo)) then Some(FreshText)
    else if When(And(IsNull(j.lvdOutletId), AtLeast(j.latestSearchDate, c.oneMonthAgo))) then Some(RecentAttemptText)
    else None
  }

  /** The `dr_to_update` CASE ladder, `ELSE false`. The two ladders agree: it
      is true exactly when the reason asks for an update. */
  function DrToUpdate(j: JoinedRow, c: Clock): (r: bool)
    ensures r <==> AsksForUpdate(DrUpdateReason(j, c))
  {
    if When(IsNull(j.ldsOutletId)) then true
    else if When(And(IsNull(j.lvdOutletId), LessThan(j.latestSearchDate, c.oneMonthAgo))) then true
    else if When(LessThan(j.latestValidDrDate, c.oneYearAgo)) then true
    else false
  }

  /** A row of the view. */
  datatype ViewRow = ViewRow(
    outletId: Id,
    drToUpdate: bool,
    drUpdateReason: Option<string>,
    drLatestSearchDate: Option<int>,
    latestValidDr: Option<int>,
    latestValidDrDate: Option<int>,
    needsUpdate: bool)

  /** The view's row for one linked outlet. */
  function StatusRow(s: Store, outlet: Id, c: Clock): (r: ViewRow)
    ensures r.outletId == outlet
    ensures r.needsUpdate == r.drToUpdate
    ensures r.drUpdateReason.Some?
    ensures r.drToUpdate <==> AsksForUpdate(r.drUpdateReason)
    ensures r.latestValidDrDate.Some? ==> r.drLatestSearchDate.Some?
  {
    var j := JoinRow(outlet, Searches(History(s, outlet)));
    var toUpdate := DrToUpdate(j, c);
    ViewRow(
      outlet,
      toUpdate,
      DrUpdateReason(j, c),
      j.latestSearchDate,
      j.latestValidDr,
      j.latestValidDrDate,
      if toUpdate then true else false)
  }

  /** A row with a valid DR was searched: the rating comes from a matched
      `latest_valid_dr` side, whose date implies a search date. */
  lemma RatedRowSearched(s: Store, outlet: Id, c: Clock)
    ensures StatusRow(s, outlet, c).latestValidDr.Some? ==> StatusRow(s, outlet, c).drLatestSearchDate.Some?
  {
    var j := JoinRow(outlet, Searches(History(s, outlet)));
    assert j.latestValidDr.Some? ==> j.latestValidDrDate.Some?;
  }

  /** The outlets of the links, each once, in order of first appearance
      (`SELECT DISTINCT aho.outlet_id ... FROM ahref_outlets aho`). */
  function LinkedOutlets(ls: seq<Link>): (r: seq<Id>)
    ensures forall i, j :: 0 <= i < j < |r| ==> r[i] != r[j]
    ensures forall o :: o in r <==> exists l :: l in ls && l.outletId == o
    decreases |ls|
  {
    if |ls| == 0 then []
    else
      var front := LinkedOutlets(ls[..|ls| - 1]);
      var last := ls[|ls| - 1];
      assert forall l :: l in ls <==> l in ls[..|ls| - 1] || l == last;
      if last.outletId in front then front else front + [last.outletId]
  }

  /** `v_outlets_domain_rating_to_update`: one row per linked outlet. */
  function View(s: Store, c: Clock): (rows: seq<ViewRow>)
    ensures |rows| == |LinkedOutlets(s.links)|
    ensures forall i :: 0 <= i < |rows| ==> rows[i] == StatusRow(s, LinkedOutlets(s.links)[i], c)
  {
    var outlets := LinkedOutlets(s.links);
    seq(|outlets|, i requires 0 <= i < |outlets| => StatusRow(s, outlets[i], c))
  }

  /** Whether some view row is about outlet `o`. */
  predicate HasRowFor(rows: seq<ViewRow>, o: Id) {
    exists i :: 0 <= i < |rows| && rows[i].outletId == o
  }

  /** Whether outlet `o` has at least one link. */
  predicate IsLinked(ls: seq<Link>, o: Id) {
    exists l :: l in ls && l.outletId == o
  }

  /** The view has exactly one row per outlet that has at least one link,
      and none for an outlet without links. */
  lemma ViewHasOneRowPerLinkedOutlet(s: Store, c: Clock)
    ensures forall o :: HasRowFor(View(s, c), o) <==> IsLinked(s.links, o)
    ensures forall i, j :: 0 <= i < j < |View(s, c)| ==> View(s, c)[i].outletId != View(s, c)[j].outletId
  {
    var outlets := LinkedOutlets(s.links);
    var v := View(s, c);
    assert forall i :: 0 <= i < |v| ==> v[i].outletId == outlets[i];
    forall o
      ensures HasRowFor(v, o) <==> o in outlets
    {
      if o in outlets {
        var i :| 0 <= i < |outlets| && outlets[i] == o;
        assert v[i].outletId == o;
      }
    }
  }
}

=== FILE: store.dfy ===
/** The two tables of the measurement store: `apify_ahref` (one row per
    scrape event) and `ahref_outlets` (the links from outlets to rows). */
module Store {
  import opened Base
  import opened Json
  import opened Schema

  /** A UUID, as text. */
  type Id = string

  /** A row of `apify_ahref`. INTEGER and BIGINT columns are `Option<int>`,
      JSONB columns `Option<Json>`; `created_at`/`updated_at` are not modelled. */
  datatype Measurement = Measurement(
    id: Id,
    urlInput: string,
    domain: string,
    dataCapturedAt: int,
    dataType: DataType,
    mode: Option<string>,
    rawData: Json,
    authorityDomainRating: Option<int>,
    authorityUrlRating: Option<int>,
    authorityBacklinks: Option<int>,
    authorityRefdomains: Option<int>,
    authorityDofollowBacklinks: Option<int>,
    authorityDofollowRefdomains: Option<int>,
    trafficMonthlyAvg: Option<int>,
    costMonthlyAvg: Option<int>,
    trafficHistory: Option<Json>,
    trafficTopPages: Option<Json>,
    trafficTopCountries: Option<Json>,
    trafficTopKeywords: Option<Json>,
    overallSearchTraffic: Option<int>,
    overallSearchTrafficHistory: Option<Json>,
    overallSearchTrafficValue: Option<int>,
    overallSearchTrafficValueHistory: Option<Json>,
    overallSearchTrafficByCountry: Option<Json>,
    trafficByCountry: Option<Json>,
    overallSearchTrafficKeywords: Option<Json>)

  /** A row of `ahref_outlets`. */
  datatype Link = Link(id: Id, outletId: Id, measurementId: Id)

  /** The committed contents of both tables, in insertion order. */
  datatype Store = Store(measurements: seq<Measurement>, links: seq<Link>)

  function MeasurementIds(ms: seq<Measurement>): (r: set<Id>)
    ensures forall m :: m in ms ==> m.id in r
    ensures forall id :: id in r ==> exists m :: m in ms && m.id == id
  {
    set m | m in ms :: m.id
  }

  function LinkIds(ls: seq<Link>): (r: set<Id>)
    ensures forall l :: l in ls ==> l.id in r
    ensures forall id :: id in r ==> exists l :: l in ls && l.id == id
  {
    set l | l in ls :: l.id
  }

  /** The constraints the DDL enforces: primary keys are unique and every
      link references an existing measurement (the foreign key). */
  predicate WellFormed(s: Store) {
    && (forall i, j :: 0 <= i < j < |s.measurements| ==> s.measurements[i].id != s.measurements[j].id)
    && (forall i, j :: 0 <= i < j < |s.links| ==> s.links[i].id != s.links[j].id)
    && (forall l :: l in s.links ==> l.measurementId in MeasurementIds(s.measurements))
  }

  const EmptyStore := Store([], [])

  predicate IsAuthority(m: Measurement) {
    m.dataType == Authority
  }

  /** An authority measurement that produced a domain rating. */
  predicate HasRating(m: Measurement) {
    m.authorityDomainRating.Some?
  }

  /** The measurements whose id is `id` (the join condition `aho.apify_ahref_id = aa.id`). */
  function WithId(ms: seq<Measurement>, id: Id): (r: seq<Measurement>)
    ensures forall m :: m in r <==> m in ms && m.id == id
  {
    if |ms| == 0 then []
    else (if ms[0].id == id then [ms[0]] else []) + WithId(ms[1..], id)
  }

  /** The measurements joined to `outlet`'s links, in link order: the history
      of one outlet. */
  function History(s: Store, outlet: Id): seq<Measurement> {
    Joined(s.links, s.measurements, outlet)
  }

  function Joined(ls: seq<Link>, ms: seq<Measurement>, outlet: Id): seq<Measurement> {
    if |ls| == 0 then []
    else (if ls[0].outletId == outlet then WithId(ms, ls[0].measurementId) else []) + Joined(ls[1..], ms, outlet)
  }

  lemma {:induction false} WithIdAppend(ms: seq<Measurement>, m: Measurement, id: Id)
    ensures WithId(ms + [m], id) == WithId(ms, id) + (if m.id == id then [m] else [])
  {
    if |ms| > 0 {
      assert (ms + [m])[1..] == ms[1..] + [m];
      WithIdAppend(ms[1..], m, id);
    }
  }

  lemma {:induction false} WithIdAbsent(ms: seq<Measurement>, id: Id)
    requires id !in MeasurementIds(ms)
    ensures WithId(ms, id) == []
  {
    if |ms| > 0 {
      assert ms[0] in ms;
      WithIdAbsent(ms[1..], id);
    }
  }

  /** A new link extends the history of its own outlet only. */
  lemma {:induction false} JoinedAppendLink(ls: seq<Link>, l: Link, ms: seq<Measurement>, o: Id)
    ensures Joined(ls + [l], ms, o) == Joined(ls, ms, o) + (if l.outletId == o then WithId(ms, l.measurementId) else [])
  {
    if |ls| > 0 {
      assert (ls + [l])[1..] == ls[1..] + [l];
      JoinedAppendLink(ls[1..], l, ms, o);
    }
  }

  /** A new measurement that no existing link references changes no history. */
  lemma {:induction false} JoinedAppendUnreferenced(ls: seq<Link>, ms: seq<Measurement>, m: Measurement, o: Id)
    requires forall l :: l in ls ==> l.measurementId != m.id
    ensures Joined(ls, ms + [m], o) == Joined(ls, ms, o)
  {
    if |ls| > 0 {
      var l0 := ls[0];
      assert l0 in ls;
      WithIdAppend(ms, m, l0.measurementId);
      assert WithId(ms + [m], l0.measurementId) == WithId(ms, l0.measurementId);
      assert forall l :: l in ls[1..] ==> l in ls;
      JoinedAppendUnreferenced(ls[1..], ms, m, o);
      assert Joined(ls, ms + [m], o) == (if l0.outletId == o then WithId(ms + [m], l0.measurementId) else []) + Joined(ls[1..], ms + [m], o);
      assert Joined(ls, ms, o) == (if l0.outletId == o then WithId(ms, l0.measurementId) else []) + Joined(ls[1..], ms, o);
    }
  }
}

=== FILE: strings.dfy ===
/** The string operations the routes use on the `outletIds` query value:
    `split(",")`, `trim()` and the `filter(Boolean)` of empty pieces. */
module Strings {
  import opened Base

  /** ECMAScript WhiteSpace and LineTerminator code points, which `trim` removes. */
  predicate IsWhitespace(c: char) {
    c == '\t' || c == '\n' || c == '\U{000B}' || c == '\U{000C}' || c == '\r' || c == ' '
    || c == '\U{00A0}' || c == '\U{1680}' || ('\U{2000}' <= c <= '\U{200A}')
    || c == '\U{2028}' || c == '\U{2029}' || c == '\U{202F}' || c == '\U{205F}'
    || c == '\U{3000}' || c == '\U{FEFF}'
  }

  predicate AllWhitespace(s: string) {
    forall k :: 0 <= k < |s| ==> IsWhitespace(s[k])
  }

  /** No whitespace at either end. */
  predicate Trimmed(s: string) {
    |s| == 0 || (!IsWhitespace(s[0]) && !IsWhitespace(s[|s| - 1]))
  }

  function TrimStart(s: string): (r: string)
    ensures |r| <= |s| && r == s[|s| - |r|..]
    ensures AllWhitespace(s[..|s| - |r|])
    ensures |r| == 0 || !IsWhitespace(r[0])
  {
    if |s| > 0 && IsWhitespace(s[0]) then
      var r := TrimStart(s[1..]);
      assert s[..|s| - |r|] == [s[0]] + s[1..][..|s[1..]| - |r|];
      r
    else s
  }

  function TrimEnd(s: string): (r: string)
    ensures |r| <= |s| && r == s[..|r|]
    ensures AllWhitespace(s[|r|..])
    ensures |r| == 0 || !IsWhitespace(r[|r| - 1])
  {
    if |s| > 0 && IsWhitespace(s[|s| - 1]) then
      var r := TrimEnd(s[..|s| - 1]);
      assert s[|r|..] == s[..|s| - 1][|r|..] + [s[|s| - 1]];
      r
    else s
  }

  /** `r` is `s` from index `i` on, less only whitespace at either end. */
  predicate Strips(s: string, i: int, r: string) {
    0 <= i <= i + |r| <= |s| && r == s[i..i + |r|] && AllWhitespace(s[..i]) && AllWhitespace(s[i + |r|..])
  }

  /** `String.prototype.trim`: `s` with its leading and trailing whitespace
      removed, and nothing else. */
  function Trim(s: string): (r: string)
    ensures Trimmed(r)
    ensures exists i :: Strips(s, i, r)
  {
    TrimBothEnds(s);
    TrimEnd(TrimStart(s))
  }

  /** Cutting whitespace off the front and then off the back strips `s`. */
  lemma TrimBothEnds(s: string)
    ensures Trimmed(TrimEnd(TrimStart(s)))
    ensures exists i :: Strips(s, i, TrimEnd(TrimStart(s)))
  {
    var front := TrimStart(s);
    TrimSlices(s, front, TrimEnd(front));
  }

  lemma TrimSlices(s: string, front: string, r: string)
    requires |front| <= |s| && front == s[|s| - |front|..] && AllWhitespace(s[..|s| - |front|])
    requires |front| == 0 || !IsWhitespace(front[0])
    requires |r| <= |front| && r == front[..|r|] && AllWhitespace(front[|r|..])
    requires |r| == 0 || !IsWhitespace(r[|r| - 1])
    ensures Strips(s, |s| - |front|, r)
    ensures Trimmed(r)
  {
    var i := |s| - |front|;
    assert s[i + |r|..] == front[|r|..];
    assert r == s[i..i + |r|];
    assert |r| > 0 ==> r[0] == front[0];
  }

  lemma TrimKeepsTrimmed(s: string)
    requires Trimmed(s)
    ensures Trim(s) == s
  {
  }

  /** Trimming only removes characters. */
  lemma TrimKeepsOut(s: string, c: char)
    requires c !in s
    ensures c !in Trim(s)
  {
    var front := TrimStart(s);
    SliceKeepsOut(s, |s| - |front|, |s|, c);
    assert front == s[|s| - |front|..|s|];
    SliceKeepsOut(front, 0, |TrimEnd(front)|, c);
    assert TrimEnd(front) == front[0..|TrimEnd(front)|];
  }

  lemma SliceKeepsOut(s: string, i: int, j: int, c: char)
    requires 0 <= i <= j <= |s| && c !in s
    ensures c !in s[i..j]
  {
    forall k | 0 <= k < j - i
      ensures s[i..j][k] != c
    {
      assert s[i..j][k] == s[i + k];
    }
  }

  /** `parts.join(sep)`. */
  function Join(parts: seq<string>, sep: char): string {
    if |parts| == 0 then ""
    else if |parts| == 1 then parts[0]
    else parts[0] + [sep] + Join(parts[1..], sep)
  }

  /** `s.split(sep)` for a one-character separator: the maximal pieces
      between separators, at least one, which join back to `s`. */
  function Split(s: string, sep: char): (r: seq<string>)
    ensures |r| >= 1
    ensures forall i :: 0 <= i < |r| ==> sep !in r[i]
    ensures Join(r, sep) == s
  {
    if |s| == 0 then [""]
    else
      var rest := Split(s[1..], sep);
      if s[0] == sep then
        assert [sep] + s[1..] == s;
        [""] + rest
      else
        assert s == [s[0]] + s[1..];
        [[s[0]] + rest[0]] + rest[1..]
  }

  lemma {:induction false} SplitPrefix(p: string, t: string, sep: char)
    requires sep !in p
    ensures Split(p + t, sep) == [p + Split(t, sep)[0]] + Split(t, sep)[1..]
  {
    if |p| > 0 {
      var r := Split(t, sep);
      assert (p + t)[1..] == p[1..] + t;
      assert (p + t)[0] == p[0] && p[0] != sep;
      SplitPrefix(p[1..], t, sep);
      var rest := Split(p[1..] + t, sep);
      assert rest[0] == p[1..] + r[0] && rest[1..] == r[1..];
      assert Split(p + t, sep) == [[p[0]] + rest[0]] + rest[1..];
      assert [p[0]] + (p[1..] + r[0]) == p + r[0];
    } else {
      var r := Split(t, sep);
      assert p + t == t;
      assert p + r[0] == r[0];
      assert [r[0]] + r[1..] == r;
    }
  }

  lemma SplitAfterSeparator(t: string, sep: char)
    ensures Split([sep] + t, sep) == [""] + Split(t, sep)
  {
    assert ([sep] + t)[1..] == t;
  }

  /** Splitting undoes joining pieces that hold no separator. */
  lemma {:induction false} SplitJoin(parts: seq<string>, sep: char)
    requires |parts| >= 1
    requires forall i :: 0 <= i < |parts| ==> sep !in parts[i]
    ensures Split(Join(parts, sep), sep) == parts
  {
    if |parts| == 1 {
      SplitPrefix(parts[0], "", sep);
      assert parts[0] + "" == parts[0];
    } else {
      var tail := Join(parts[1..], sep);
      SplitJoin(parts[1..], sep);
      SplitAfterSeparator(tail, sep);
      var r := Split([sep] + tail, sep);
      assert r == [""] + parts[1..];
      assert Join(parts, sep) == parts[0] + ([sep] + tail);
      SplitPrefix(parts[0], [sep] + tail, sep);
      assert r[0] == "" && r[1..] == parts[1..];
      assert parts[0] + "" == parts[0];
      assert parts == [parts[0]] + parts[1..];
    }
  }

  predicate NonEmpty(s: string) {
    s != ""
  }

  /** `raw.split(",").map((id) => id.trim()).filter(Boolean)`. */
  function ParseIds(raw: string): (ids: seq<string>)
    ensures forall id :: id in ids ==> id != "" && Trimmed(id) && ',' !in id
  {
    var pieces := Split(raw, ',');
    var trimmed := Map(pieces, Trim);
    forall i | 0 <= i < |trimmed|
      ensures ',' !in trimmed[i]
    {
      TrimKeepsOut(pieces[i], ',');
    }
    Filter(trimmed, NonEmpty)
  }

  lemma ParseIdsEmpty()
    ensures ParseIds("") == []
  {
    assert Split("", ',') == [""];
    TrimKeepsTrimmed("");
    var m := Map([""], Trim);
    assert m == [""] by {
      assert |m| == 1 && m[0] == Trim("");
    }
    FilterKeepsNone([""], NonEmpty);
  }

  lemma MapTrimKeepsTrimmed(ids: seq<string>)
    requires forall i :: 0 <= i < |ids| ==> Trimmed(ids[i])
    ensures Map(ids, Trim) == ids
  {
    forall i | 0 <= i < |ids|
      ensures Trim(ids[i]) == ids[i]
    {
      TrimKeepsTrimmed(ids[i]);
    }
  }

  /** A value of separators only parses to no ids. */
  lemma ParseIdsSeparatorOnly()
    ensures ParseIds(",") == []
  {
    assert Split(",", ',') == ["", ""] by {
      assert ","[1..] == "";
      assert Split("", ',') == [""];
    }
    TrimKeepsTrimmed("");
    var m := Map(["", ""], Trim);
    assert m == ["", ""] by {
      assert |m| == 2 && m[0] == Trim("") && m[1] == Trim("");
    }
    FilterKeepsNone(["", ""], NonEmpty);
  }

  /** Parsing comma-joined pieces, which may be empty or padded, gives each
      piece trimmed, in order, with the empty ones dropped. Every value is
      such a join (of its own split), so this says what `ParseIds` does with
      any input. */
  lemma ParseIdsOfJoin(pieces: seq<string>)
    requires forall i :: 0 <= i < |pieces| ==> ',' !in pieces[i]
    ensures ParseIds(Join(pieces, ',')) == Filter(Map(pieces, Trim), NonEmpty)
  {
    if |pieces| == 0 {
      ParseIdsEmpty();
      assert Map(pieces, Trim) == [];
    } else {
      SplitJoin(pieces, ',');
    }
  }

  /** Parsing a comma-joined list of ids gives the list back, provided the
      ids are non-empty, trimmed and free of commas. */
  lemma ParseIdsJoin(ids: seq<string>)
    requires forall i :: 0 <= i < |ids| ==> ids[i] != "" && Trimmed(ids[i]) && ',' !in ids[i]
    ensures ParseIds(Join(ids, ',')) == ids
  {
    ParseIdsOfJoin(ids);
    MapTrimKeepsTrimmed(ids);
    FilterKeepsAll(ids, NonEmpty);
  }

  /** The first id, in order, that fails the check; None when all pass. */
  function FirstInvalid(ids: seq<string>, isUuid: string -> bool): (r: Option<string>)
    ensures r.None? <==> forall i :: 0 <= i < |ids| ==> isUuid(ids[i])
    ensures r.Some? ==> exists k :: 0 <= k < |ids| && ids[k] == r.value && !isUuid(ids[k]) &&
                                    forall j :: 0 <= j < k ==> isUuid(ids[j])
  {
    if |ids| == 0 then None
    else if !isUuid(ids[0]) then Some(ids[0])
    else
      var r := FirstInvalid(ids[1..], isUuid);
      if r.Some? then
        var k :| 0 <= k < |ids[1..]| && ids[1..][k] == r.value && !isUuid(ids[1..][k]) &&
                 forall j :: 0 <= j < k ==> isUuid(ids[1..][j]);
        assert ids[k + 1] == r.value;
        r
      else r
  }
}

=== FILE: uuid.dfy ===
/** UUIDs as Postgres sees them. An `outlet_id` column has type UUID, so
    the text a request carries is converted on the way in and read back
    in one canonical spelling. Two texts name the same outlet when they
    convert to the same UUID, not when they are equal as strings. */
module Uuid {
  import opened Base

  /** A text-to-UUID conversion that reads back its own results unchanged:
      the canonical spelling converts to itself. */
  ghost predicate Canonicalising(f: string -> Option<string>) {
    forall t, u :: f(t) == Some(u) ==> f(u) == Some(u)
  }

  /** The conversion that accepts nothing. */
  function AcceptsNothing(t: string): Option<string> {
    None
  }

  /** Postgres's text-to-`uuid` input conversion, read back as text: the
      canonical spelling of an accepted text, or None when the cast raises
      ("invalid input syntax for type uuid"). */
  type Cast = f: string -> Option<string> | Canonicalising(f) witness AcceptsNothing

  /** Whether two texts are spellings of one UUID. */
  predicate SameUuid(cast: Cast, a: string, b: string) {
    cast(a).Some? && cast(a) == cast(b)
  }

  /** Whether `t` is already in canonical spelling. */
  predicate IsCanonical(cast: Cast, t: string) {
    cast(t) == Some(t)
  }

  /** The canonical spelling of an accepted text is canonical, and is a
      spelling of the same UUID. */
  lemma CanonicalOfAccepted(cast: Cast, t: string)
    requires cast(t).Some?
    ensures IsCanonical(cast, cast(t).value)
    ensures SameUuid(cast, cast(t).value, t)
  {
  }

  // ---------------------------------------------------------------------
  // The conversion on the 8-4-4-4-12 hexadecimal spelling

  predicate IsHexDigit(ch: char) {
    ('0' <= ch <= '9') || ('a' <= ch <= 'f') || ('A' <= ch <= 'F')
  }

  /** Whether position `i` of a 36-character UUID text holds a hyphen. */
  predicate IsHyphenPosition(i: int) {
    i == 8 || i == 13 || i == 18 || i == 23
  }

  /** The 8-4-4-4-12 spelling, hex digits in either case. */
  predicate IsHyphenated(t: string) {
    && |t| == 36
    && forall i :: 0 <= i < 36 ==> if IsHyphenPosition(i) then t[i] == '-' else IsHexDigit(t[i])
  }

  function LowerChar(ch: char): (r: char)
    ensures 'A' <= ch <= 'Z' ==> r as int == ch as int + 32
    ensures !('A' <= ch <= 'Z') ==> r == ch
    ensures !('A' <= r <= 'Z')
  {
    if 'A' <= ch <= 'Z' then (ch as int + 32) as char else ch
  }

  function LowerAscii(t: string): (r: string)
    ensures |r| == |t|
    ensures forall i :: 0 <= i < |t| ==> r[i] == LowerChar(t[i])
  {
    seq(|t|, i requires 0 <= i < |t| => LowerChar(t[i]))
  }

  /** The conversion restricted to the 8-4-4-4-12 spelling: accepted texts
      read back with lower-case hex digits. */
  function HyphenatedCast(t: string): (r: Option<string>)
    ensures r.Some? <==> IsHyphenated(t)
    ensures r.Some? ==> r.value == LowerAscii(t) && IsHyphenated(r.value)
  {
    if IsHyphenated(t) then
      var low := LowerAscii(t);
      assert forall i :: 0 <= i < 36 ==> IsHexDigit(t[i]) ==> IsHexDigit(low[i]);
      Some(low)
    else None
  }

  /** The hyphenated conversion reads its own results back unchanged. */
  lemma HyphenatedCastCanonicalising()
    ensures Canonicalising(HyphenatedCast)
  {
    forall t, u | HyphenatedCast(t) == Some(u)
      ensures HyphenatedCast(u) == Some(u)
    {
      assert LowerAscii(u) == u;
    }
  }

  /** An upper-case spelling and its lower-case form convert to the same
      UUID, whose canonical text is the lower-case one: as strings they
      differ, as UUIDs they are equal. */
  lemma CaseIsNotIdentity(upper: string)
    requires IsHyphenated(upper)
    requires exists i :: 0 <= i < |upper| && 'A' <= upper[i] <= 'Z'
    ensures HyphenatedCast(upper) == HyphenatedCast(LowerAscii(upper)) == Some(LowerAscii(upper))
    ensures HyphenatedCast(upper) != Some(upper)
  {
    var i :| 0 <= i < |upper| && 'A' <= upper[i] <= 'Z';
    assert LowerAscii(upper)[i] != upper[i];
    HyphenatedCastCanonicalising();
  }

  /** The hyphenated conversion as a `Cast`. */
  function Hyphenated(): (f: Cast)
    ensures forall t :: f(t) == HyphenatedCast(t)
  {
    HyphenatedCastCanonicalising();
    HyphenatedCast
  }
}
